=== FILE: README.md ===
# HackHub core, modelled in Dafny

HackHub is a hackathon platform. This project models the logic at its core:

- **The Flask backend's two stores.**
  - The hackathon and registration store (`backend/hackathons.py`).
  - The account and profile store (`backend/auth.py`).

  MongoDB collections become maps keyed by document id. A unique index becomes a map key or a map in the other direction. Each route becomes a pure function from a store and a request to a status, a message and the next store.
- **The Next.js client's pure helpers.**
  - The cookie reader and login state (`src/hooks/use-auth.tsx`).
  - The route guard (`src/middleware.ts`).
  - The header's link logic (`src/components/layout/header.tsx`).
  - The wishlist kept in local storage (`src/lib/wishlist.ts`).
  - The server actions' input checks (`src/app/actions.ts`).
  - The organizer's "create hackathon" form (`src/app/organizer/dashboard/create/page.tsx`).
- **The text helpers of the assistant route** (`src/app/api/ai-chat/route.ts`):
  - list formatting;
  - text normalisation;
  - token-overlap scoring;
  - choice of the best-matching hackathon.
- **The code indexer script** (`scripts/index-code.mjs`):
  - which files are indexed;
  - language labels;
  - path normalisation;
  - cutting a file into chunks of lines.

The repository has no team, join-request or invitation logic, so none is modelled. Registering for a hackathon is an insert into a collection with a unique `(user_id, hackathon_id)` index. A second attempt answers "Already registered" and changes nothing. It is not an upsert.

## Module layout

- `Base`, `Json`, `Strings`: helpers.
  - `Option`.
  - A JSON value type with Python truthiness and `int()`.
  - JavaScript and Python string operations: split, join, trim/strip, ASCII lower-casing and decimal text.
- `Tokens`: the claims of a freshly issued JWT. Signing and decoding are abstract.
- `Hackathons`: create, update, delete, register and "my registrations".
- `Auth`: signup, login, profile update and profile read.
- `Cookies`, `RouteGuard`, `Header`, `Wishlist`, `Actions`, `CreateForm`: the client modules.
- `ChatText`: the assistant route's text helpers.
- `Indexer`: the code indexer.

The source reads a clock, random ids and the browser environment. These become parameters:

- `now`/`nowMicros` is the clock.
- `newId` is the id the database assigns.
- `Option<string>` stands for `document.cookie`, with `None` for server-side rendering.
- `Browser` stands for `window`/`localStorage`.
- Function parameters stand for the AI matching flow and the publish call's outcome.

Store invariants are ghost predicates (`Hackathons.Valid`, `Auth.Valid`), and every mutating route is proved to preserve them.

## Model

| member | source | states |
|---|---|---|
| Tokens.Issue | backend/auth.py:35-45 | The token carries the user's id, email, type and name; `iat` is the current second; `exp` is `iat` plus the configured minutes, which may be negative (then the token expires before it is issued), both truncated toward zero as Python's `int` does |
| Hackathons.CreateHackathon | backend/hackathons.py:87-124 | 401 without a decoded token, 403 for a non-organizer, 400 when a required field is missing or falsy, 500 when `team_size` does not convert; otherwise 201, a new document under the new id only, owned by the caller, stamped with `now`, required fields copied, `team_size` stored as an int (0 when absent), every other hackathon and all registrations unchanged |
| Hackathons.UpdateHackathon | backend/hackathons.py:127-148 | 401, 404 for an unknown id, 403 for another organizer's hackathon, and no change on any of those; on 200 only whitelisted keys of the request overwrite fields, all other fields, the owner and `created_at` are kept, `updated_at` becomes `now`, other documents untouched |
| Hackathons.DeleteHackathon | backend/hackathons.py:151-169 | Same 401/404/403 gates; on 200 the hackathon is removed and exactly the registrations pointing to it are removed with it, everything else untouched |
| Hackathons.Register | backend/hackathons.py:172-194 | 401, 404 for an unknown hackathon; an existing `(user, hackathon)` pair answers 200 "Already registered" with the store unchanged; otherwise 201 "Registered" and only that pair is added |
| Hackathons.MyRegistrations | backend/hackathons.py:197-220 | Unauthorized exactly without a token; otherwise the listing holds exactly the existing hackathons the caller registered for, each shown with its stored fields or their defaults, its id and status "Confirmed" |
| Hackathons.CreatePreservesValid | backend/hackathons.py:98-122 | Creation keeps every registration pointing to an existing hackathon and every document's fields within the editable set |
| Hackathons.UpdatePreservesValid | backend/hackathons.py:144-147 | The field whitelist keeps documents within the editable set |
| Hackathons.DeletePreservesValid | backend/hackathons.py:167-168 | The cascade leaves no registration pointing to the deleted hackathon |
| Hackathons.RegisterPreservesValid | backend/hackathons.py:172-194 | Registration only ever refers to an existing hackathon |
| Hackathons.RegisterIdempotent | backend/hackathons.py:23 | The unique index makes registering twice add exactly one registration; the second call answers "Already registered" |
| Hackathons.RegisterThenDelete | backend/hackathons.py:167-168 | After registering, the hackathon appears in the user's list; after its owner deletes it, it disappears and no registration for it remains |
| Auth.NormalizeEmailIdempotent | backend/auth.py:71 | Lower-casing then stripping an already normalised email changes nothing |
| Auth.Signup | backend/auth.py:55-90 | 400 with no change when name, email or password is missing or empty; 409 "Email already registered" when the normalised email is taken; otherwise 201, one new user under the new id with the name as sent, the normalised email, the user type defaulting to participant, a hash that checks against the password and no completed profile, every existing user unchanged, and a session whose token and reply carry the new id, the email and name as sent and the chosen user type, issued as `create_jwt` does |
| Auth.Login | backend/auth.py:93-114 | Never changes the accounts; 400 exactly when the normalised email or the password is empty; 200 exactly when the email is registered and the password checks, with a session whose token and reply carry that user's id, stored email, name and user type; every other case is 401 |
| Auth.LoginFailuresIndistinguishable | backend/auth.py:102-104 | An unknown email and a wrong password give the same 401 reply |
| Auth.SignupPreservesValid | backend/auth.py:31-32 | Signup keeps the unique email index in agreement with the users, in both directions |
| Auth.DuplicateEmailRejected | backend/auth.py:77-80 | Two signups whose emails normalise to the same text: the second gets 409 and changes nothing |
| Auth.SignupThenLogin | backend/auth.py:55-114 | After signup, logging in with any spelling of the email that normalises the same and the same password succeeds for the new user, whose token carries the user type and name chosen at signup |
| Auth.RoleResolution | backend/auth.py:189 | The requested role wins when truthy, lower-cased; else the stored user type lower-cased; else participant; a truthy non-string role is a failure |
| Auth.UpdateProfile | backend/auth.py:165-215 | 400 without a token, 401 for an undecodable one, 400 "Profile data is required" for empty data, 500 for a truthy non-string role; for a non-empty object and a resolvable role, 200 exactly when the request carries a non-blank name, and otherwise no change; on 200 the caller's profile alone is replaced by the role-whitelisted part of the request, keeping its creation time, and the caller's user record alone is marked profile-completed with `updated_at` set to now |
| Auth.UpdateProfilePreservesValid | backend/auth.py:203-210 | Profile updates never disturb the email index invariant |
| Auth.ProfileUpsert | backend/auth.py:203-210 | A second update of the same profile adds no profile and keeps the first creation time; the stored keys come from the latest request only |
| Auth.GetProfile | backend/auth.py:143-162 | 400 without a token, 401 for an undecodable one, otherwise 200 with the stored profile data when it exists and is non-empty, else an empty profile |
| Auth.UpdateThenGet | backend/auth.py:143-215 | After a successful update, reading the profile returns exactly what was stored, including a name |
| Json.IntOf | backend/hackathons.py:118 | Python `int()` on a JSON value: numbers pass unchanged, arrays, objects and null fail |
| Cookies.GetCookie | src/hooks/use-auth.tsx:6-13 | No cookie is read without a document |
| Cookies.GetCookieValue | src/hooks/use-auth.tsx:8-11 | A value read contains no `;` and is a prefix of the text right after an occurrence of `"; name="` |
| Cookies.GetCookieUnique | src/hooks/use-auth.tsx:8-11 | When `"; name="` occurs once, the value is the text after it up to the next `;` |
| Cookies.GetCookieAbsent | src/hooks/use-auth.tsx:8-12 | When the marker does not occur, the cookie is not found |
| Cookies.GetCookieDuplicate | src/hooks/use-auth.tsx:8-12 | A cookie name that occurs twice is not found at all |
| Cookies.GetCookieFirst | src/hooks/use-auth.tsx:8-11 | In `t=1; u=2` the cookie `t` reads as `1` |
| Cookies.GetCookieAnchored | src/hooks/use-auth.tsx:8-12 | `xt=1` does not supply cookie `t`: names match only at a `"; "` boundary |
| Cookies.CheckLoginStatus | src/hooks/use-auth.tsx:28-33 | Signed out with no user type when there is no document (server rendering) |
| Cookies.LoggedInFromText | src/hooks/use-auth.tsx:6-33 | From the cookie text: with one `"; isLoggedIn="`, signed in exactly when the text after it up to the next `;` is `true`; with none, or two, signed out |
| Cookies.UserTypeFromText | src/hooks/use-auth.tsx:6-33 | From the cookie text: with one `"; userType="`, the user type is the text after it up to the next `;`; with none, or two, there is none |
| RouteGuard.ProtectedIff | src/middleware.ts:5-10 | The protected prefixes are `/hackathons/my`, `/profile`, `/organizer` and `/judge` |
| RouteGuard.AuthIff | src/middleware.ts:12-16 | The sign-in pages are those under `/login` and `/signup` |
| RouteGuard.Guard | src/middleware.ts:18-39 | Redirect to login, carrying the path, exactly for a protected path without a non-empty token; redirect to `/hackathons/my` exactly for a sign-in page with a token; otherwise pass through |
| RouteGuard.ProtectedAndAuthDisjoint | src/middleware.ts:5-16 | No path is both protected and a sign-in page |
| RouteGuard.NoRedirectLoop | src/middleware.ts:18-39 | The target of either redirect is passed through, so the guard never redirects twice |
| RouteGuard.PrefixNotSegment | src/middleware.ts:23-24 | Prefixes match characters, not path segments: `/profile-x` is protected and `/signup/organizer` counts as a sign-in page |
| Header.ProfileUrl | src/components/layout/header.tsx:32 | Organizers and judges get their own profile page, everyone else `/profile` |
| Header.ExploreHighlight | src/components/layout/header.tsx:54 | Explore is highlighted under `/hackathons` except under `/hackathons/my` |
| Header.HighlightExclusive | src/components/layout/header.tsx:35-108 | On any page at most one of Explore, My Hackathons, Dashboard, Create and Judging Dashboard is highlighted |
| Header.DashboardHighlight | src/components/layout/header.tsx:78-90 | Dashboard is highlighted exactly under `/organizer/dashboard` but not under its create page; Create is highlighted only inside the dashboard |
| Header.VisibleLinks | src/components/layout/header.tsx:61-158 | Each role link is shown exactly to a signed-in user of that role; the account menus exactly when signed in, the sign-in buttons exactly otherwise |
| Header.RoleLinksExclusive | src/components/layout/header.tsx:61-108 | At most one role link is shown, and none for an unknown role |
| Header.ProfileUrlProtected | src/components/layout/header.tsx:32 | Every profile link target is protected by the route guard and redirects a signed-out visitor to login |
| Header.OrganizerSignInRedirected | src/components/layout/header.tsx:158 | The signed-out Organizer button's `/organizer/login` lies under a protected prefix, so the guard sends the visitor to `/login` |
| Wishlist.GetWishlist | src/lib/wishlist.ts:11-22 | The list read has no duplicates, holds exactly the ids of a stored array, and is empty without a window or when storage does not hold an array |
| Wishlist.SetWishlist | src/lib/wishlist.ts:24-33 | Storage receives exactly the given ids when there is a window and the write succeeds; without a window or when `setItem` throws, it keeps what it held |
| Wishlist.GetAfterSet | src/lib/wishlist.ts:11-33 | Reading back a duplicate-free list that was written gives that list; after a failed write, the old list |
| Wishlist.FromArrayNoDup | src/lib/wishlist.ts:17-18 | Building the set from a duplicate-free array keeps the array as it is |
| Wishlist.ToggleWishlist | src/lib/wishlist.ts:35-40 | After toggling, the id is in the list exactly when switched on; every other id's membership is unchanged; no duplicates |
| Wishlist.ToggleStores | src/lib/wishlist.ts:35-40 | After a successful write the toggled list is what storage holds; without a window or after a failed write storage is unchanged |
| Wishlist.ToggleIdempotent | src/lib/wishlist.ts:35-40 | Toggling the same id the same way twice is the same as once, whether or not the write succeeds |
| Wishlist.IsWishlisted | src/lib/wishlist.ts:42-44 | True exactly when there is a window whose storage holds an array containing the id |
| Wishlist.ToggleThenIsWishlisted | src/lib/wishlist.ts:35-44 | After toggling an id, reading it back answers the flag when the write succeeded, and the earlier answer when it failed |
| Actions.FindTeammates | src/app/actions.ts:15-37 | Invalid input answers "Invalid input."; otherwise the matcher gets the trimmed, non-empty comma-separated skills and interests, and its result is the reply; a failing matcher gives the fixed text "An error occurred while matching teammates." |
| Actions.ParseList | src/app/actions.ts:25-26 | Parsed list items are non-empty and trimmed |
| Actions.Utf16NonEmpty | src/app/actions.ts:7-11 | A field of minimum length 1 is exactly a non-empty field |
| Actions.InvalidIgnoresMatcher | src/app/actions.ts:15-21 | Rejected input never reaches the matching flow |
| Actions.CommasOnlySkills | src/app/actions.ts:7-26 | Skills made only of commas and spaces pass the schema but reach the flow as an empty list |
| Actions.ParseListOrder | src/app/actions.ts:25-26 | The parsed list keeps input order, and holds exactly the trimmed pieces that are non-empty |
| Actions.SignupParticipant | src/app/actions.ts:118-130 | Fails with "Invalid input." exactly when the name is shorter than 2, the email is invalid or the password shorter than 8 code units |
| Actions.SignupOrganizer | src/app/actions.ts:132-143 | The same rule for the organizer form |
| Actions.SignupLengthRules | src/app/actions.ts:110-114 | Concrete consequences of the length rules for both forms |
| Actions.EmojiNameLength | src/app/actions.ts:110-114 | Lengths count UTF-16 code units: one emoji has length two |
| CreateForm.AddRound | src/app/organizer/dashboard/create/page.tsx:35-37 | Adding a round appends one empty round |
| CreateForm.RemoveRound | src/app/organizer/dashboard/create/page.tsx:39-41 | Removing index `i` drops exactly that round when it exists, otherwise changes nothing |
| CreateForm.RoundChange | src/app/organizer/dashboard/create/page.tsx:43-47 | Editing a field changes only that field of that round |
| CreateForm.RoundsNeverEmpty | src/app/organizer/dashboard/create/page.tsx:19-47 | Starting from one round, no sequence of add, remove and edit actions the page allows leaves no rounds |
| CreateForm.PayloadRoundsAppend | src/app/organizer/dashboard/create/page.tsx:60 | Rounds are filtered one by one: the payload rounds of two lists are those of each, in order |
| CreateForm.PayloadRoundsSingle | src/app/organizer/dashboard/create/page.tsx:60 | A single round is sent exactly when it has a name and a date |
| CreateForm.ListField | src/app/organizer/dashboard/create/page.tsx:64-68 | An empty field gives an empty list; items are non-empty and trimmed |
| CreateForm.ListFieldGuardRedundant | src/app/organizer/dashboard/create/page.tsx:64-68 | The empty-field guard before splitting is redundant: splitting an empty field already yields nothing |
| CreateForm.BuildPayload | src/app/organizer/dashboard/create/page.tsx:53-70 | Theme "General" and hint "hackathon banner"; location type defaults to online; a location is sent exactly for offline events; no image is sent when the field is empty |
| CreateForm.Publish | src/app/organizer/dashboard/create/page.tsx:49-77 | Without a non-empty `authToken` cookie, an error toast and nothing handed to the API client; otherwise the built payload is handed to its `createHackathon` call, success resets the form, and failure (including the call throwing before any request) keeps it with the error's message or a fallback |
| CreateForm.PublishResets | src/app/organizer/dashboard/create/page.tsx:73 | A successful publish leaves the form in its initial state, with a single empty round |
| CreateForm.RequiredFields | backend/hackathons.py:98-100 | The payload fields handed to the required-field check are exactly the backend's required keys |
| CreateForm.PayloadPassesRequiredCheck | backend/hackathons.py:98-100 | A published form passes the backend's required-field check exactly when its name and description are non-empty |
| ChatText.FormatList | src/app/api/ai-chat/route.ts:41-45 | Up to `max` items are joined with commas; a longer list starts with its first `max` items joined |
| ChatText.FormatListCount | src/app/api/ai-chat/route.ts:41-45 | A longer list ends in ", and k more", where k is the decimal count of the items left out |
| ChatText.LowerAndBlank | src/app/api/ai-chat/route.ts:48-49 | One character after lower-casing and blanking: the output holds only lower-case letters, digits and whitespace; A-Z become their lower-case letter and KELVIN SIGN becomes `k`; lower-case letters, digits and whitespace are kept; every other character except the dotted capital I becomes whitespace only |
| ChatText.NormalizeKeepsAlnums | src/app/api/ai-chat/route.ts:47-53 | `normalize` keeps every letter and digit of the lower-cased, blanked text, in order; only whitespace changes |
| ChatText.NormalizeKeepsLetters | src/app/api/ai-chat/route.ts:47-53 | For text without KELVIN SIGN or a dotted capital I, the letters and digits of the normalised text are exactly those of the lower-cased input, in order |
| ChatText.NormalizeIsNormal | src/app/api/ai-chat/route.ts:47-53 | Normalised text holds only lower-case letters, digits and single inner spaces |
| ChatText.NormalFixed | src/app/api/ai-chat/route.ts:47-53 | Normalised text is a fixed point |
| ChatText.NormalizeFixesNormal | src/app/api/ai-chat/route.ts:47-53 | Normalising is idempotent |
| ChatText.NormalizeConcat | src/app/api/ai-chat/route.ts:47-53 | Words stay apart: two texts that each hold a letter or digit, joined by a space, normalise to their normal forms joined by one space |
| ChatText.Tokens | src/app/api/ai-chat/route.ts:56-57 | A token set is never empty: blank text splits to one empty token |
| ChatText.TokenOverlap | src/app/api/ai-chat/route.ts:55-63 | The score is the number of tokens the two texts share over the size of the smaller token set, a fraction between 0 and 1 |
| ChatText.TokenOverlapSymmetric | src/app/api/ai-chat/route.ts:55-63 | The score does not depend on argument order |
| ChatText.TokenOverlapSubset | src/app/api/ai-chat/route.ts:55-63 | The score is 1 exactly when one token set contains the other |
| ChatText.TokenOverlapZero | src/app/api/ai-chat/route.ts:55-63 | The score is 0 exactly when the texts share no token |
| ChatText.BlankInputsScoreOne | src/app/api/ai-chat/route.ts:55-63 | Two texts with no letters or digits score 1 |
| ChatText.FirstMax | src/app/api/ai-chat/route.ts:114-115 | A stable descending sort's head: the first index whose score no other exceeds |
| ChatText.ResolveHackathon | src/app/api/ai-chat/route.ts:114-116 | A hackathon is chosen only when it scores at least 0.34, it is the first of the best, and none is chosen only when no name reaches 0.34 |
| Indexer.ShouldIndexFile | scripts/index-code.mjs:145-153 | A file is indexed exactly when its lower-cased extension (with KELVIN SIGN read as `k`, as `toLowerCase` does) is not binary, its base name is not sensitive, it is at most 512 KiB, and it is text-like or at most 64 KiB |
| Indexer.KelvinExtensions | scripts/index-code.mjs:145-153 | Lower-casing follows `toLowerCase` on the tables: `M\u212AV` is skipped as `mkv`, and `MAR\u212ADOWN` is labelled markdown |
| Indexer.SmallFilesIndexed | scripts/index-code.mjs:145-153 | A non-binary, non-sensitive file up to 64 KiB is indexed; one over the limit is not |
| Indexer.SecretsNeverIndexed | scripts/index-code.mjs:98-109 | Examples: `.env`, `.ENV.local` and `my-Secret-notes.md` are never indexed |
| Indexer.SecretNamesNeverIndexed | scripts/index-code.mjs:98-153 | Any base name containing "secret" in any mix of ASCII cases is never indexed |
| Indexer.LanguageOf | scripts/index-code.mjs:111-143 | Every extension given a language label is a text-like extension |
| Indexer.LabelledNotBinary | scripts/index-code.mjs:24-65 | No labelled extension is a binary extension |
| Indexer.LabelledFilesIndexed | scripts/index-code.mjs:145-153 | A file with a labelled extension is indexed exactly when it is not sensitive and within the size limit |
| Indexer.NormalizePath | scripts/index-code.mjs:170-172 | Backslashes become slashes; every other character and the length are kept |
| Indexer.NormalizePathIdempotent | scripts/index-code.mjs:170-172 | Normalising a path twice is normalising it once |
| Indexer.SplitLinesJoin | scripts/index-code.mjs:175 | Joining the split lines with `\n` gives the content with every CRLF turned into LF |
| Indexer.SplitLinesCount | scripts/index-code.mjs:210 | The line count is one more than the number of LF characters |
| Indexer.NextChunk | scripts/index-code.mjs:178-183 | A chunk starts at the current line, ends `m` lines later or at the last line, and carries exactly those lines joined |
| Indexer.CutExtend | scripts/index-code.mjs:177-184 | Each loop step keeps the chunks consecutive, full but for the last, and their joined text equal to the lines cut so far |
| Indexer.CutDone | scripts/index-code.mjs:177-186 | When the loop ends, the chunk count is the ceiling of lines over `m` and the chunks tile all the lines |
| Indexer.ChunkContentByLines | scripts/index-code.mjs:174-186 | The chunks are ceiling(lines/`m`) consecutive runs from line 1 to the last line, each of at most `m` lines and all full but the last, and joining their texts gives the content with CRLF turned into LF |
| Indexer.IndexFile | scripts/index-code.mjs:192-213 | A record exists exactly for files other than `code-index.json` that pass the filter; it has the normalised path, the file's size, the extension's language and the line count, and its chunks are the 400-line chunking of the file's lines, which reassembles the content |
| Strings.TrimBySpec | src/app/actions.ts:25 | Trimming removes exactly the leading and trailing whitespace: the result is a slice of the input without whitespace at either end |
| Strings.DecimalRoundTrip | src/app/api/ai-chat/route.ts:44 | Writing a natural number in decimal and reading it back gives the number |

## Left out

- Database and network I/O: drivers, HTTP, CORS and JSON parsing are left out. MongoDB is a map, and a failed `ObjectId(...)` conversion is not modelled: ids are already-valid keys.
- Ill-typed request bodies: request fields are typed (`Option<string>` for signup and login, a JSON object for a hackathon). So the 500 the backend raises is not modelled for these inputs: `.lower()` on a non-string email (backend/auth.py:71, 96), hashing a non-string password (backend/auth.py:66), and `.get` on a truthy non-object `hackathon` (backend/hackathons.py:99).
- Tokens.Issue: a lifetime so large or so negative that the expiry falls outside the years 1 to 9999 makes Python raise `OverflowError`; that error is not modelled.
- JWT signing and verification: a request carries the decoded claims or `None`. Expiry checking is part of that decode and is not modelled.
- Password hashing: the hash is abstract; checking a password is equality with the hashed secret.
- The clock and id generation: both are parameters. Datetimes are integer timestamps.
- Database-level races: concurrent inserts are not modelled; the unique indexes are the map keys.
- Hackathons.MyRegistrations: the listing is a map keyed by hackathon id, so the order of the source's list is not modelled.
- Json.IntOf: it accepts only ASCII digits with an optional sign. Python's `int` also accepts digit separators (`1_000`) and non-ASCII digits. Floats are not modelled: JSON numbers are integers here.
- Auth.Signup: it treats a null `user_type` like a missing one. Python would store `None` for an explicit null.
- Strings.ToLower: lower-casing is ASCII-only. This is exact for the indexer's name patterns (`Indexer.IsSensitive`), because a case-insensitive regular expression without the `u` flag never matches a non-ASCII character to an ASCII one. It is not exact for Python's `lower()` on emails and roles in the backend, which also maps KELVIN SIGN to `k` and other letters outside ASCII to their lower-case forms. Extensions use `Indexer.ExtLower` and the assistant route uses `ChatText.LowerAndBlank`, which both handle the characters that lower-case to ASCII.
- The middleware `config.matcher` list (src/middleware.ts:41-52): it only limits which requests reach the guard, which is modelled for every path.
- The assistant route's intent detection, backend fetches, reply templates and `getEventStatus`: these are regular expressions over free text, network calls and the clock. Only the text helpers and the best-match choice are modelled.
- ChatText.TokenOverlap:
  - It does not model the zero-size guard, because a split always yields at least one token.
  - It computes an exact fraction. The source computes a double; the two agree on the 0.34 threshold for any realistic number of tokens.
  - A hackathon without a name is not modelled.
- CreateForm.BuildPayload: it sends the prize and team size as the raw text (`"0"` when empty) and does not model `Number(...)` parsing.
- React rendering, toasts' timing and routing: only the state changes of the create page are modelled.
- CreateForm.Publish: the publish call's outcome is a parameter. The client in src/lib/api.ts (lines 78-110) has no `createHackathon` method, so as written the call throws a TypeError before any request is made and the page always takes the failure branch. That is the `ApiFailed(message)` outcome; the `handed` payload is what the page passes to the call, not a request that reaches the backend. The contract states its form-kept, destructive-toast behaviour. `PayloadPassesRequiredCheck` describes what the backend would do if the fields arrived as sent.
- Actions.ValidSignup: the zod e-mail format check is a boolean parameter. The AI matching flow is a function parameter that may fail.
- Wishlist.GetWishlist: a stored array is taken to hold strings. An array with elements of other types, which the source would put into the set as they are, is not modelled. A throwing `getItem` reads as unreadable text, which gives the same empty set.
- Indexer.ChunkContentByLines: it requires a positive chunk size, because the source loops forever with 0.
- The indexer's filesystem work: directory walking, `fs` calls, hashing and `path.extname` are left out. The extension, base name and size are inputs. A file whose read throws, which `buildIndex` skips, is not modelled.

=== FILE: actions.dfy ===
/**
 * Server actions' input handling (src/app/actions.ts): the teammate-search
 * form and the two sign-up forms. Schema checks measure string length in
 * UTF-16 code units, as JavaScript's `length` does. The e-mail format check
 * and the matching flow itself are parameters.
 */
module Actions {
  import opened Strings

  /** JavaScript `s.length`: characters outside the Basic Multilingual Plane count twice. */
  function Utf16Length(s: string): (n: nat)
    ensures |s| <= n <= 2 * |s|
    decreases |s|
  {
    if |s| == 0 then 0 else (if s[0] as int >= 0x1_0000 then 2 else 1) + Utf16Length(s[1..])
  }

  /** The three fields of the teammate-search form. */
  datatype FindTeammatesForm = FindTeammatesForm(skills: string, interests: string, category: string)

  /** What the matching flow receives. */
  datatype MatchInput = MatchInput(userSkills: seq<string>, userInterests: seq<string>, hackathonCategory: string)

  /** The matching flow's outcome: a value, or an exception. */
  datatype MatchOutcome<T> = Returned(value: T) | Threw

  /** An action's reply: `{data}`, `{success}` or `{error}`. */
  datatype Reply<T> = Data(data: T) | Success(message: string) | Error(message: string)

  /** `findTeammatesFormSchema`: each field at least one code unit long. */
  predicate ValidFindTeammates(v: FindTeammatesForm) {
    Utf16Length(v.skills) >= 1 && Utf16Length(v.interests) >= 1 && Utf16Length(v.category) >= 1
  }

  /** The comma-separated list parsing of the skills and interests fields. */
  function ParseList(s: string): (items: seq<string>)
    ensures forall k :: 0 <= k < |items| ==> items[k] != [] && Trim(items[k]) == items[k]
  {
    SplitTrimmed(s, ",")
  }

  /** `findTeammates(values)` with the matching flow as `matcher`. */
  function FindTeammates<T>(v: FindTeammatesForm, matcher: MatchInput -> MatchOutcome<T>): (r: Reply<T>)
    ensures !ValidFindTeammates(v) ==> r == Error("Invalid input.")
    ensures ValidFindTeammates(v) ==>
      var input := MatchInput(ParseList(v.skills), ParseList(v.interests), v.category);
      r == (if matcher(input).Returned? then Data(matcher(input).value)
            else Error("An error occurred while matching teammates."))
  {
    if !ValidFindTeammates(v) then Error("Invalid input.")
    else
      var input := MatchInput(ParseList(v.skills), ParseList(v.interests), v.category);
      match matcher(input)
      case Returned(x) => Data(x)
      case Threw => Error("An error occurred while matching teammates.")
  }

  /** A field is valid exactly when it is non-empty. */
  lemma Utf16NonEmpty(s: string)
    ensures Utf16Length(s) >= 1 <==> s != []
  {
  }

  /** Rejected input never reaches the matching flow: any two flows give the same reply. */
  lemma InvalidIgnoresMatcher<T>(v: FindTeammatesForm, m1: MatchInput -> MatchOutcome<T>, m2: MatchInput -> MatchOutcome<T>)
    requires v.skills == [] || v.interests == [] || v.category == []
    ensures FindTeammates(v, m1) == FindTeammates(v, m2) == Error("Invalid input.")
  {
  }

  /**
   * Skills made only of commas and spaces pass the schema, yet the flow is
   * called with an empty skill list.
   */
  lemma CommasOnlySkills<T>(v: FindTeammatesForm, matcher: MatchInput -> MatchOutcome<T>)
    requires v.skills != [] && v.interests != [] && v.category != []
    requires forall k :: 0 <= k < |v.skills| ==> v.skills[k] == ',' || v.skills[k] == ' '
    ensures ValidFindTeammates(v)
    ensures ParseList(v.skills) == []
  {
    SplitTrimmedBlank(v.skills, ',');
  }

  /** The parsed list keeps the input's order: parsing two pieces is parsing each. */
  lemma ParseListOrder(pieces: seq<string>, more: seq<string>)
    ensures TrimNonEmpty(pieces + more) == TrimNonEmpty(pieces) + TrimNonEmpty(more)
    ensures forall x :: x in TrimNonEmpty(pieces) <==> x in Trims(pieces) && x != []
  {
    TrimNonEmptyAppend(pieces, more);
    TrimNonEmptyMembers(pieces);
  }

  /** The sign-up form. */
  datatype SignupForm = SignupForm(name: string, email: string, password: string)

  /** `signupFormSchema`, with the e-mail format check as `emailOk`. */
  predicate ValidSignup(v: SignupForm, emailOk: bool) {
    Utf16Length(v.name) >= 2 && emailOk && Utf16Length(v.password) >= 8
  }

  function SignupParticipant(v: SignupForm, emailOk: bool): (r: Reply<()>)
    ensures r.Error? <==> !ValidSignup(v, emailOk)
    ensures r.Error? ==> r.message == "Invalid input."
  {
    if !ValidSignup(v, emailOk) then Error("Invalid input.")
    else Success("Account created successfully! You can now log in.")
  }

  function SignupOrganizer(v: SignupForm, emailOk: bool): (r: Reply<()>)
    ensures r.Error? <==> !ValidSignup(v, emailOk)
    ensures r.Error? ==> r.message == "Invalid input."
  {
    if !ValidSignup(v, emailOk) then Error("Invalid input.")
    else Success("Organizer account created successfully! You can now log in.")
  }

  /**
   * Both sign-up actions reject a one-character name and a password of
   * fewer than four characters whatever they are, and accept any valid
   * e-mail with a name of two and a password of eight characters.
   */
  lemma SignupLengthRules(v: SignupForm, emailOk: bool)
    ensures |v.name| <= 1 && (|v.name| == 0 || v.name[0] as int < 0x1_0000) ==>
      SignupParticipant(v, emailOk).Error? && SignupOrganizer(v, emailOk).Error?
    ensures |v.password| < 4 ==> SignupParticipant(v, emailOk).Error? && SignupOrganizer(v, emailOk).Error?
    ensures emailOk && |v.name| >= 2 && |v.password| >= 8 ==>
      SignupParticipant(v, emailOk).Success? && SignupOrganizer(v, emailOk).Success?
  {
    if |v.name| == 1 {
      assert v.name[1..] == [];
    }
  }

  /** Lengths count UTF-16 code units: a single emoji is a name of length two. */
  lemma EmojiNameLength()
    ensures Utf16Length("\U{1F600}") == 2
  {
    assert "\U{1F600}"[1..] == [];
  }
}

=== FILE: auth.dfy ===
/**
 * Accounts and profiles of backend/auth.py as transitions over two
 * collections: `users`, with its unique index on the normalised email, and
 * `profiles`, with its unique index on `user_id`.
 *
 * The email index is a map from normalised email to user id, kept in step
 * with the users map (`Valid`). Password hashing is abstract: a stored hash
 * remembers the password it was made from, and checking a candidate is
 * comparing with it, which is the guarantee the hashing library provides.
 */
module Auth {
  import opened Base
  import opened Json
  import Strings
  import Tokens

  type UserId = string

  /** A salted password hash; only the check `CheckPassword` is observable. */
  datatype PasswordHash = Hashed(secret: string)

  function HashPassword(password: string): PasswordHash {
    Hashed(password)
  }

  predicate CheckPassword(h: PasswordHash, candidate: string) {
    h.secret == candidate
  }

  datatype User = User(
    name: string,
    email: string,
    passwordHash: PasswordHash,
    userType: string,
    createdAt: int,
    updatedAt: int,
    profileCompleted: bool)

  datatype Profile = Profile(data: Object, role: string, createdAt: int, updatedAt: int)

  datatype Accounts = Accounts(
    users: map<UserId, User>,
    emailIndex: map<string, UserId>,
    profiles: map<UserId, Profile>)

  /** The unique email index agrees with the users collection in both directions. */
  ghost predicate Valid(a: Accounts) {
    && (forall e :: e in a.emailIndex ==> a.emailIndex[e] in a.users && a.users[a.emailIndex[e]].email == e)
    && (forall id :: id in a.users ==> a.users[id].email in a.emailIndex && a.emailIndex[a.users[id].email] == id)
  }

  /** `email.lower().strip()`. */
  function NormalizeEmail(email: string): string {
    Strings.Strip(Strings.ToLower(email))
  }

  /** Normalising an already normalised email changes nothing. */
  lemma NormalizeEmailIdempotent(email: string)
    ensures NormalizeEmail(NormalizeEmail(email)) == NormalizeEmail(email)
  {
    var l := Strings.ToLower(email);
    var t := Strings.Strip(l);
    var a := Strings.StripInfix(l);
    Strings.ToLowerInfix(email, a, a + |t|);
    assert Strings.ToLower(t) == t;
    Strings.StripIdempotent(l);
    assert Strings.Strip(t) == t;
  }

  /** What a successful signup or login hands back to the client. */
  datatype Session = Session(token: Tokens.Claims, userType: string, email: string, name: string, userId: UserId)

  datatype AuthReply = AuthReply(status: int, message: string, session: Option<Session>, accounts: Accounts)

  /** The JSON body of a signup request; `None` is a missing key or JSON `null`. */
  datatype SignupRequest = SignupRequest(
    name: Option<string>,
    email: Option<string>,
    password: Option<string>,
    userType: Option<string>)

  /** A request string that is absent or empty (`not x`). */
  predicate Blank(x: Option<string>) {
    x.None? || x.value == []
  }

  /**
   * POST /signup. `newId` is the id the store assigns to the new document,
   * `nowMicros` the clock, `expiresMinutes` the configured token lifetime.
   */
  function Signup(a: Accounts, req: SignupRequest, newId: UserId, nowMicros: nat, expiresMinutes: int): (r: AuthReply)
    requires newId !in a.users
    ensures (Blank(req.name) || Blank(req.email) || Blank(req.password)) ==>
      r.status == 400 && r.accounts == a && r.session.None?
    ensures !(Blank(req.name) || Blank(req.email) || Blank(req.password)) ==>
      var norm := NormalizeEmail(req.email.value);
      && (norm in a.emailIndex ==> r.status == 409 && r.message == "Email already registered" && r.accounts == a)
      && (norm !in a.emailIndex ==>
            && r.status == 201
            && r.accounts.users.Keys == a.users.Keys + {newId}
            && r.accounts.emailIndex == a.emailIndex[norm := newId]
            && r.accounts.profiles == a.profiles
            && r.accounts.users[newId].email == norm
            && r.accounts.users[newId].userType == req.userType.GetOr("participant")
            && CheckPassword(r.accounts.users[newId].passwordHash, req.password.value)
            && r.session.Some? && r.session.value.userId == newId
            && r.session.value.token.sub == newId
            && (expiresMinutes >= 0 ==> r.session.value.token.exp == r.session.value.token.iat + expiresMinutes * 60))
    ensures r.status != 201 ==> r.accounts == a && r.session.None?
    ensures r.status == 201 ==> forall id :: id in a.users ==> id in r.accounts.users && r.accounts.users[id] == a.users[id]
    ensures r.status == 201 ==>
      && req.name.Some? && newId in r.accounts.users
      && r.accounts.users[newId].name == req.name.value
      && !r.accounts.users[newId].profileCompleted
    ensures r.status == 201 ==>
      && req.email.Some? && req.name.Some? && r.session.Some?
      && r.session.value.email == req.email.value && r.session.value.name == req.name.value
      && r.session.value.token.email == req.email.value && r.session.value.token.name == req.name.value
    ensures r.status == 201 ==>
      && r.session.Some?
      && r.session.value.userType == req.userType.GetOr("participant")
      && r.session.value.token.userType == req.userType.GetOr("participant")
      && r.session.value.token
         == Tokens.Issue(newId, req.email.value, req.userType.GetOr("participant"), req.name.value, nowMicros, expiresMinutes)
  {
    if Blank(req.name) || Blank(req.email) || Blank(req.password) then
      AuthReply(400, "Name, email and password are required", None, a)
    else
      var name := req.name.value;
      var email := req.email.value;
      var userType := req.userType.GetOr("participant");
      var norm := NormalizeEmail(email);
      if norm in a.emailIndex then AuthReply(409, "Email already registered", None, a)
      else
        var u := User(name, norm, HashPassword(req.password.value), userType, nowMicros, nowMicros, false);
        var a' := a.(users := a.users[newId := u], emailIndex := a.emailIndex[norm := newId]);
        // The token and the reply carry the email as sent, not its normalised form.
        var token := Tokens.Issue(newId, email, userType, name, nowMicros, expiresMinutes);
        AuthReply(201, "Account created successfully", Some(Session(token, userType, email, name, newId)), a')
  }

  datatype LoginRequest = LoginRequest(email: Option<string>, password: Option<string>)

  /** POST /login; never changes the store. */
  function Login(a: Accounts, req: LoginRequest, nowMicros: nat, expiresMinutes: int): (r: AuthReply)
    requires Valid(a)
    ensures r.accounts == a
    ensures r.status == 400 <==> (NormalizeEmail(req.email.GetOr("")) == [] || Blank(req.password))
    ensures r.status == 200 <==>
      var norm := NormalizeEmail(req.email.GetOr(""));
      && norm != [] && !Blank(req.password) && norm in a.emailIndex
      && CheckPassword(a.users[a.emailIndex[norm]].passwordHash, req.password.value)
    ensures r.status == 200 ==>
      var id := a.emailIndex[NormalizeEmail(req.email.value)];
      && r.session.Some? && r.session.value.userId == id
      && r.session.value.email == a.users[id].email
    ensures r.status == 200 ==>
      var id := a.emailIndex[NormalizeEmail(req.email.value)];
      var u := a.users[id];
      && r.session.Some?
      && r.session.value.userType == u.userType && r.session.value.name == u.name
      && r.session.value.token.userType == u.userType
      && r.session.value.token.email == u.email && r.session.value.token.name == u.name
      && r.session.value.token == Tokens.Issue(id, u.email, u.userType, u.name, nowMicros, expiresMinutes)
      && r.session.value.token.sub == id
    ensures r.status != 200 ==> r.session.None?
    ensures r.status in {200, 400, 401}
  {
    var email := NormalizeEmail(req.email.GetOr(""));
    if email == [] || Blank(req.password) then
      AuthReply(400, "Email and password are required", None, a)
    else if email !in a.emailIndex || !CheckPassword(a.users[a.emailIndex[email]].passwordHash, req.password.value) then
      AuthReply(401, "Invalid email or password", None, a)
    else
      var id := a.emailIndex[email];
      var u := a.users[id];
      var token := Tokens.Issue(id, u.email, u.userType, u.name, nowMicros, expiresMinutes);
      AuthReply(200, "Login successful", Some(Session(token, u.userType, u.email, u.name, id)), a)
  }

  /** An unknown email and a wrong password are indistinguishable to the caller. */
  lemma LoginFailuresIndistinguishable(a: Accounts, unknown: LoginRequest, wrong: LoginRequest, nowMicros: nat, m: int)
    requires Valid(a)
    requires unknown.password.Some? && unknown.password.value != []
    requires wrong.password.Some? && wrong.password.value != []
    requires var e := NormalizeEmail(unknown.email.GetOr("")); e != [] && e !in a.emailIndex
    requires var e := NormalizeEmail(wrong.email.GetOr(""));
      e != [] && e in a.emailIndex && !CheckPassword(a.users[a.emailIndex[e]].passwordHash, wrong.password.value)
    ensures Login(a, unknown, nowMicros, m) == Login(a, wrong, nowMicros, m)
    ensures Login(a, unknown, nowMicros, m).status == 401
  {
  }

  /** Signup keeps the email index consistent with the users collection. */
  lemma SignupPreservesValid(a: Accounts, req: SignupRequest, newId: UserId, nowMicros: nat, m: int)
    requires Valid(a)
    requires newId !in a.users
    ensures Valid(Signup(a, req, newId, nowMicros, m).accounts)
  {
    var r := Signup(a, req, newId, nowMicros, m);
    if r.status == 201 {
      var norm := NormalizeEmail(req.email.value);
      var a' := r.accounts;
      forall e | e in a'.emailIndex
        ensures a'.emailIndex[e] in a'.users && a'.users[a'.emailIndex[e]].email == e
      {
        if e != norm {
          assert a.emailIndex[e] != newId;
        }
      }
    }
  }

  /**
   * A signup whose email normalises to an already registered one is refused
   * and adds nobody, whatever the spelling of the second email.
   */
  lemma DuplicateEmailRejected(a: Accounts, first: SignupRequest, second: SignupRequest,
                               id1: UserId, id2: UserId, t1: nat, t2: nat, m: int)
    requires id1 !in a.users && id2 !in a.users && id1 != id2
    requires !Blank(first.name) && !Blank(first.email) && !Blank(first.password)
    requires !Blank(second.name) && !Blank(second.email) && !Blank(second.password)
    requires NormalizeEmail(first.email.value) !in a.emailIndex
    requires NormalizeEmail(first.email.value) == NormalizeEmail(second.email.value)
    ensures var r1 := Signup(a, first, id1, t1, m);
      && r1.status == 201
      && var r2 := Signup(r1.accounts, second, id2, t2, m);
         r2.status == 409 && r2.accounts == r1.accounts
  {
  }

  /**
   * Round trip: after a successful signup, logging in with any spelling of the
   * same email and the same password succeeds as the new user.
   */
  lemma SignupThenLogin(a: Accounts, req: SignupRequest, newId: UserId, t1: nat, loginEmail: string, t2: nat, m: int)
    requires Valid(a)
    requires newId !in a.users
    requires !Blank(req.name) && !Blank(req.email) && !Blank(req.password)
    requires NormalizeEmail(req.email.value) !in a.emailIndex
    requires NormalizeEmail(loginEmail) == NormalizeEmail(req.email.value)
    requires NormalizeEmail(loginEmail) != []
    ensures var r1 := Signup(a, req, newId, t1, m);
      && r1.status == 201
      && var r2 := Login(r1.accounts, LoginRequest(Some(loginEmail), req.password), t2, m);
         && r2.status == 200
         && r2.session.value.userId == newId
         && r2.session.value.email == NormalizeEmail(req.email.value)
         && r2.session.value.userType == req.userType.GetOr("participant")
         && r2.session.value.token.userType == req.userType.GetOr("participant")
         && r2.session.value.name == req.name.value
  {
    SignupPreservesValid(a, req, newId, t1, m);
  }

  // ---------------------------------------------------------------------------
  // Profiles
  // ---------------------------------------------------------------------------

  /** The token field of a request: absent or empty, or present with its verification outcome. */
  datatype Credential = NoToken | Token(decoded: Option<Tokens.Claims>)

  /** The fields each role may store in its profile. */
  const ParticipantFields: set<string> := {"name", "tagline", "location", "bio", "skills", "linkedin", "github"}
  const OrganizerFields: set<string> := {"name", "organization", "location", "bio", "contact_email", "website", "linkedin"}
  const JudgeFields: set<string> := {"name", "specialization", "bio", "linkedin"}

  /** The whitelist for a role; a role with no entry uses the participant whitelist. */
  function AllowedFields(role: string): (s: set<string>)
    ensures role !in {"organizer", "judge"} ==> s == ParticipantFields
    ensures "name" in s
  {
    if role == "organizer" then OrganizerFields
    else if role == "judge" then JudgeFields
    else ParticipantFields
  }

  /**
   * `(profile.get('role') or user.get('user_type') or 'participant').lower()`;
   * `None` when a truthy `role` is not a string, so `.lower()` raises.
   */
  function ResolveRole(profile: Object, storedUserType: Option<string>): Option<string> {
    var requested := Get(profile, "role", JNull);
    if Truthy(requested) then
      if requested.JStr? then Some(Strings.ToLower(requested.s)) else None
    else if storedUserType.Some? && storedUserType.value != [] then Some(Strings.ToLower(storedUserType.value))
    else Some("participant")
  }

  /** The role precedence: requested role, else the stored user type, else participant. */
  lemma RoleResolution(profile: Object, storedUserType: Option<string>)
    ensures "role" in profile && profile["role"].JStr? && profile["role"].s != [] ==>
      ResolveRole(profile, storedUserType) == Some(Strings.ToLower(profile["role"].s))
    ensures !Truthy(Get(profile, "role", JNull)) && storedUserType.Some? && storedUserType.value != [] ==>
      ResolveRole(profile, storedUserType) == Some(Strings.ToLower(storedUserType.value))
    ensures !Truthy(Get(profile, "role", JNull)) && (storedUserType.None? || storedUserType.value == []) ==>
      ResolveRole(profile, storedUserType) == Some("participant")
    ensures ResolveRole(profile, storedUserType).None? <==>
      Truthy(Get(profile, "role", JNull)) && !Get(profile, "role", JNull).JStr?
  {
  }

  /** `not str(v).strip()`: only a string can render as blank. */
  predicate BlankName(v: Json) {
    v.JStr? && Strings.Strip(v.s) == []
  }

  /** The stored user type of `id`, if the user exists. */
  function StoredUserType(a: Accounts, id: UserId): Option<string> {
    if id in a.users then Some(a.users[id].userType) else None
  }

  datatype ProfileReply = ProfileReply(status: int, message: string, accounts: Accounts)

  /** POST /profile/update: validate, filter by role, then upsert keyed by user id. */
  function UpdateProfile(a: Accounts, cred: Credential, profileIn: Json, now: int): (r: ProfileReply)
    ensures cred.NoToken? ==> r.status == 400 && r.accounts == a
    ensures cred.Token? && cred.decoded.None? ==> r.status == 401 && r.accounts == a
    ensures cred.Token? && cred.decoded.Some? && !(profileIn.JObj? && profileIn.fields != map[]) ==>
      r.status == 400 && r.message == "Profile data is required" && r.accounts == a
    ensures r.status != 200 ==> r.accounts == a
    ensures r.status == 200 ==>
      && cred.Token? && cred.decoded.Some? && profileIn.JObj?
      && var uid := cred.decoded.value.sub;
         var p := profileIn.fields;
         var role := ResolveRole(p, StoredUserType(a, uid));
         && role.Some?
         && r.accounts.profiles.Keys == a.profiles.Keys + {uid}
         && (forall other :: other in a.profiles && other != uid ==> r.accounts.profiles[other] == a.profiles[other])
         && (var stored := r.accounts.profiles[uid];
             && stored.role == role.value
             && stored.data.Keys == p.Keys * AllowedFields(role.value)
             && (forall k :: k in stored.data ==> stored.data[k] == p[k])
             && "name" in stored.data && !BlankName(stored.data["name"])
             && stored.updatedAt == now
             && stored.createdAt == (if uid in a.profiles then a.profiles[uid].createdAt else now))
         && r.accounts.emailIndex == a.emailIndex
         && r.accounts.users.Keys == a.users.Keys
         && (uid in a.users ==> r.accounts.users[uid].profileCompleted)
    ensures cred.Token? && cred.decoded.Some? && profileIn.JObj? && profileIn.fields != map[] ==>
      var p := profileIn.fields;
      var role := ResolveRole(p, StoredUserType(a, cred.decoded.value.sub));
      && (role.None? ==> r.status == 500)
      && (role.Some? ==>
            (r.status == 200 <==> "name" in p && "name" in AllowedFields(role.value) && !BlankName(p["name"])))
    ensures r.status == 200 ==>
      && cred.Token? && cred.decoded.Some?
      && var uid := cred.decoded.value.sub;
         && (forall id :: id in a.users && id != uid ==> id in r.accounts.users && r.accounts.users[id] == a.users[id])
         && (uid in a.users ==>
               uid in r.accounts.users && r.accounts.users[uid] == a.users[uid].(profileCompleted := true, updatedAt := now))
  {
    var profile := Or(profileIn, JObj(map[]));
    if cred.NoToken? then ProfileReply(400, "Token is required", a)
    else if cred.decoded.None? then ProfileReply(401, "Invalid or expired token", a)
    else if !profile.JObj? || profile.fields == map[] then ProfileReply(400, "Profile data is required", a)
    else
      var uid := cred.decoded.value.sub;
      var p := profile.fields;
      match ResolveRole(p, StoredUserType(a, uid))
      case None => ProfileReply(500, "Internal Server Error", a)
      case Some(role) =>
        var allowed := AllowedFields(role);
        var filtered := map k | k in p && k in allowed :: p[k];
        if "name" !in filtered || BlankName(filtered["name"]) then ProfileReply(400, "Name is required", a)
        else
          var createdAt := if uid in a.profiles then a.profiles[uid].createdAt else now;
          var profiles := a.profiles[uid := Profile(filtered, role, createdAt, now)];
          var users := if uid in a.users
                       then a.users[uid := a.users[uid].(profileCompleted := true, updatedAt := now)]
                       else a.users;
          ProfileReply(200, "Profile updated successfully", a.(profiles := profiles, users := users))
  }

  /** Updating a profile never disturbs the email index invariant. */
  lemma UpdateProfilePreservesValid(a: Accounts, cred: Credential, profileIn: Json, now: int)
    requires Valid(a)
    ensures Valid(UpdateProfile(a, cred, profileIn, now).accounts)
  {
  }

  /**
   * Upsert keyed by user: a second successful write replaces the data
   * wholesale, keeps one profile for the user, and keeps the first write's
   * creation time.
   */
  lemma ProfileUpsert(a: Accounts, c: Tokens.Claims, p1: Json, p2: Json, t1: int, t2: int)
    requires UpdateProfile(a, Token(Some(c)), p1, t1).status == 200
    requires UpdateProfile(UpdateProfile(a, Token(Some(c)), p1, t1).accounts, Token(Some(c)), p2, t2).status == 200
    ensures var a1 := UpdateProfile(a, Token(Some(c)), p1, t1).accounts;
      var a2 := UpdateProfile(a1, Token(Some(c)), p2, t2).accounts;
      && a2.profiles.Keys == a1.profiles.Keys
      && a2.profiles[c.sub].createdAt == a1.profiles[c.sub].createdAt
      && a2.profiles[c.sub].data.Keys <= p2.fields.Keys
  {
  }

  /** The answer of POST /profile/get. */
  datatype ProfileView = ProfileView(status: int, profile: Object, exists_: bool)

  /** POST /profile/get: the stored data, or an empty object when there is none. */
  function GetProfile(a: Accounts, cred: Credential): (r: ProfileView)
    ensures cred.NoToken? ==> r.status == 400
    ensures cred.Token? && cred.decoded.None? ==> r.status == 401
    ensures r.status == 200 <==> cred.Token? && cred.decoded.Some?
    ensures r.status == 200 ==>
      var uid := cred.decoded.value.sub;
      && (r.exists_ <==> uid in a.profiles && a.profiles[uid].data != map[])
      && (r.exists_ ==> r.profile == a.profiles[uid].data)
      && (!r.exists_ ==> r.profile == map[])
  {
    if cred.NoToken? then ProfileView(400, map[], false)
    else if cred.decoded.None? then ProfileView(401, map[], false)
    else
      var uid := cred.decoded.value.sub;
      var data := if uid in a.profiles then a.profiles[uid].data else map[];
      ProfileView(200, data, data != map[])
  }

  /** What a successful profile update stores is what a later read returns. */
  lemma UpdateThenGet(a: Accounts, c: Tokens.Claims, p: Json, now: int)
    requires UpdateProfile(a, Token(Some(c)), p, now).status == 200
    ensures var a1 := UpdateProfile(a, Token(Some(c)), p, now).accounts;
      var v := GetProfile(a1, Token(Some(c)));
      && v.status == 200 && v.exists_
      && v.profile == a1.profiles[c.sub].data
      && "name" in v.profile
  {
  }
}

=== FILE: base.dfy ===
/** Small shared datatypes used across the model. */
module Base {

  /** A value that may be absent: JavaScript `undefined`, Python `None`, a missing key. */
  datatype Option<T> = None | Some(value: T) {

    /** The carried value, or `default` when absent. */
    function GetOr(default: T): T {
      match this
      case Some(v) => v
      case None => default
    }
  }

  /** The smaller of two integers (JavaScript `Math.min`). */
  function Min(a: int, b: int): (r: int)
    ensures r <= a && r <= b
    ensures r == a || r == b
  {
    if a <= b then a else b
  }
}

=== FILE: chat.dfy ===
/**
 * The assistant route's text helpers (src/app/api/ai-chat/route.ts): list
 * formatting, query normalisation, the token-overlap score between a
 * hackathon name and the visitor's message, and the choice of the
 * best-scoring hackathon.
 *
 * Scores are exact fractions `num / den` rather than floating-point
 * quotients; see `Ratio`.
 */
module ChatText {
  import opened Base
  import opened Strings

  // ---------------------------------------------------------------------------
  // formatList
  // ---------------------------------------------------------------------------

  const DefaultMaxListed: nat := 5

  /** `formatList(items, max)`: the first `max` items, then how many were left out. */
  function FormatList(items: seq<string>, max: nat): (r: string)
    ensures |items| <= max ==> r == Join(items, ", ")
    ensures |items| > max ==> Join(items[..max], ", ") <= r
  {
    var slice := items[..Min(max, |items|)];
    assert |items| <= max ==> slice == items;
    var more := |items| - |slice|;
    if more > 0 then Join(slice, ", ") + ", and " + DecimalString(more) + " more"
    else Join(slice, ", ")
  }

  /**
   * When items are left out, the text ends with `, and K more` where `K`,
   * read back as a decimal number, is exactly how many were left out.
   */
  lemma FormatListCount(items: seq<string>, max: nat) returns (k: string)
    requires |items| > max
    ensures AllDigits(k) && ParseDecimal(k) == |items| - max
    ensures FormatList(items, max) == Join(items[..max], ", ") + ", and " + k + " more"
  {
    k := DecimalString(|items| - max);
    DecimalRoundTrip(|items| - max);
  }

  // ---------------------------------------------------------------------------
  // normalize
  // ---------------------------------------------------------------------------

  predicate IsLowerAlnum(c: char) {
    'a' <= c <= 'z' || '0' <= c <= '9'
  }

  /** A character of normalised text. */
  predicate IsNormalChar(c: char) {
    IsLowerAlnum(c) || c == ' '
  }

  /**
   * One character after `toLowerCase()` and `replace(/[^a-z0-9\s]/g, ' ')`.
   * Besides A-Z, two characters lower-case to ASCII letters: KELVIN SIGN
   * becomes `k`, and LATIN CAPITAL LETTER I WITH DOT ABOVE becomes `i`
   * followed by a combining dot, which is then replaced. Every other
   * character lower-cases to a non-ASCII one and is replaced by one space per
   * UTF-16 code unit.
   */
  function LowerAndBlank(c: char): (r: string)
    ensures forall k :: 0 <= k < |r| ==> IsLowerAlnum(r[k]) || IsJsSpace(r[k])
    ensures IsLowerAlnum(c) || IsJsSpace(c) ==> r == [c]
    ensures 'A' <= c <= 'Z' ==> r == [LowerChar(c)] && IsLowerAlnum(r[0])
    ensures c == '\U{212A}' ==> r == "k"
    ensures !('A' <= c <= 'Z') && !LowersToAsciiLetter(c) && !IsLowerAlnum(c) ==>
      forall k :: 0 <= k < |r| ==> IsJsSpace(r[k])
  {
    if 'A' <= c <= 'Z' then [LowerChar(c)]
    else if IsLowerAlnum(c) || IsJsSpace(c) then [c]
    else if c == '\U{212A}' then "k"
    else if c == '\U{0130}' then "i "
    else if c as int >= 0x1_0000 then "  "
    else " "
  }

  function LowerAndBlankAll(s: string): (r: string)
    ensures forall k :: 0 <= k < |r| ==> IsLowerAlnum(r[k]) || IsJsSpace(r[k])
    decreases |s|
  {
    if |s| == 0 then [] else LowerAndBlank(s[0]) + LowerAndBlankAll(s[1..])
  }

  /** `replace(/\s+/g, ' ')`: every maximal run of whitespace becomes one space. */
  function CollapseSpaces(s: string): (r: string)
    ensures |s| > 0 ==> |r| > 0 && r[0] == (if IsJsSpace(s[0]) then ' ' else s[0])
    ensures forall k :: 0 <= k < |r| - 1 ==> !(r[k] == ' ' && r[k + 1] == ' ')
    ensures (forall k :: 0 <= k < |s| ==> IsLowerAlnum(s[k]) || IsJsSpace(s[k])) ==>
              forall k :: 0 <= k < |r| ==> IsNormalChar(r[k])
    decreases |s|
  {
    if |s| == 0 then []
    else if IsJsSpace(s[0]) then
      var t := TrimStartBy(s, IsJsSpace);
      TrimStartBySuffix(s, IsJsSpace);
      assert |t| < |s|;
      " " + CollapseSpaces(t)
    else
      [s[0]] + CollapseSpaces(s[1..])
  }

  /** `normalize(text)`. */
  function Normalize(text: string): string {
    Trim(CollapseSpaces(LowerAndBlankAll(text)))
  }

  /** Normalised text: lower-case letters, digits and single inner spaces. */
  predicate IsNormal(s: string) {
    && (forall k :: 0 <= k < |s| ==> IsNormalChar(s[k]))
    && (forall k :: 0 <= k < |s| - 1 ==> !(s[k] == ' ' && s[k + 1] == ' '))
    && (|s| > 0 ==> s[0] != ' ' && s[|s| - 1] != ' ')
  }

  /** A slice of text without double spaces has none either, and keeps its characters' kind. */
  lemma InfixKeepsNormalChars(c: string, a: nat, r: string)
    requires a + |r| <= |c| && r == c[a..a + |r|]
    requires forall k :: 0 <= k < |c| ==> IsNormalChar(c[k])
    requires forall k :: 0 <= k < |c| - 1 ==> !(c[k] == ' ' && c[k + 1] == ' ')
    ensures forall k :: 0 <= k < |r| ==> IsNormalChar(r[k])
    ensures forall k :: 0 <= k < |r| - 1 ==> !(r[k] == ' ' && r[k + 1] == ' ')
  {
    forall k | 0 <= k < |r| ensures IsNormalChar(r[k]) {
      assert r[k] == c[a + k];
    }
    forall k | 0 <= k < |r| - 1 ensures !(r[k] == ' ' && r[k + 1] == ' ') {
      assert r[k] == c[a + k] && r[k + 1] == c[a + k + 1];
    }
  }

  /** Trimming text of normal characters without double spaces leaves normal text. */
  lemma TrimToNormal(c: string)
    requires forall k :: 0 <= k < |c| ==> IsNormalChar(c[k])
    requires forall k :: 0 <= k < |c| - 1 ==> !(c[k] == ' ' && c[k + 1] == ' ')
    ensures IsNormal(Trim(c))
  {
    TrimBySpec(c, IsJsSpace);
    InfixKeepsNormalChars(c, |c| - |TrimStartBy(c, IsJsSpace)|, Trim(c));
  }

  /** `normalize` yields normal text. */
  lemma NormalizeIsNormal(text: string)
    ensures IsNormal(Normalize(text))
  {
    TrimToNormal(CollapseSpaces(LowerAndBlankAll(text)));
  }

  lemma {:induction false} LowerAndBlankFixed(s: string)
    requires forall k :: 0 <= k < |s| ==> IsNormalChar(s[k])
    ensures LowerAndBlankAll(s) == s
    decreases |s|
  {
    if |s| > 0 {
      LowerAndBlankFixed(s[1..]);
    }
  }

  lemma {:induction false} CollapseFixed(s: string)
    requires forall k :: 0 <= k < |s| ==> IsNormalChar(s[k])
    requires forall k :: 0 <= k < |s| - 1 ==> !(s[k] == ' ' && s[k + 1] == ' ')
    ensures CollapseSpaces(s) == s
    decreases |s|
  {
    if |s| > 0 {
      if IsJsSpace(s[0]) {
        if |s| > 1 {
          assert !IsJsSpace(s[1]);
        }
        assert TrimStartBy(s, IsJsSpace) == s[1..];
      }
      CollapseFixed(s[1..]);
    }
  }

  lemma NormalFixed(s: string)
    requires IsNormal(s)
    ensures Normalize(s) == s
  {
    LowerAndBlankFixed(s);
    CollapseFixed(s);
    TrimByIdempotent(s, IsJsSpace);
  }

  /** Normal text is left alone, so `normalize` is idempotent. */
  lemma NormalizeFixesNormal(s: string)
    ensures IsNormal(s) ==> Normalize(s) == s
    ensures Normalize(Normalize(s)) == Normalize(s)
  {
    if IsNormal(s) {
      NormalFixed(s);
    }
    NormalizeIsNormal(s);
    NormalFixed(Normalize(s));
  }

  /** The letters and digits of `s`, in order. */
  function Alnums(s: string): string
    decreases |s|
  {
    if |s| == 0 then [] else (if IsLowerAlnum(s[0]) then [s[0]] else []) + Alnums(s[1..])
  }

  lemma {:induction false} AlnumsAppend(a: string, b: string)
    ensures Alnums(a + b) == Alnums(a) + Alnums(b)
    decreases |a|
  {
    if |a| == 0 {
      assert a + b == b;
    } else {
      var head := if IsLowerAlnum(a[0]) then [a[0]] else [];
      assert (a + b)[0] == a[0] && (a + b)[1..] == a[1..] + b;
      assert Alnums(a + b) == head + Alnums(a[1..] + b);
      AlnumsAppend(a[1..], b);
      assert Alnums(a) == head + Alnums(a[1..]);
    }
  }

  lemma {:induction false} AlnumsOfBlanks(s: string)
    requires forall k :: 0 <= k < |s| ==> !IsLowerAlnum(s[k])
    ensures Alnums(s) == []
    decreases |s|
  {
    if |s| > 0 {
      AlnumsOfBlanks(s[1..]);
    }
  }

  /** Text around a piece that holds no letters or digits adds none. */
  lemma AlnumsAround(s: string, p: string, m: string, q: string)
    requires s == p + m + q
    requires forall k :: 0 <= k < |p| ==> !IsLowerAlnum(p[k])
    requires forall k :: 0 <= k < |q| ==> !IsLowerAlnum(q[k])
    ensures Alnums(s) == Alnums(m)
  {
    AlnumsAppend(p + m, q);
    AlnumsAppend(p, m);
    AlnumsOfBlanks(p);
    AlnumsOfBlanks(q);
  }

  lemma AlnumsOfPiece(s: string, a: nat, b: nat)
    requires a <= b <= |s|
    requires forall k :: 0 <= k < a ==> !IsLowerAlnum(s[k])
    requires forall k :: b <= k < |s| ==> !IsLowerAlnum(s[k])
    ensures Alnums(s) == Alnums(s[a..b])
  {
    var p, m, q := s[..a], s[a..b], s[b..];
    forall k | 0 <= k < |p| ensures !IsLowerAlnum(p[k]) {
      assert p[k] == s[k];
    }
    forall k | 0 <= k < |q| ensures !IsLowerAlnum(q[k]) {
      assert q[k] == s[b + k];
    }
    ThreeSlices(s, a, b);
    AlnumsAround(s, p, m, q);
  }

  /** A string is its three slices at `a` and `b`, put back together. */
  lemma ThreeSlices(s: string, a: nat, b: nat)
    requires a <= b <= |s|
    ensures s == s[..a] + s[a..b] + s[b..]
  {
  }

  /** Leading whitespace holds no letters or digits. */
  lemma AlnumsTrimStart(s: string)
    ensures Alnums(TrimStartBy(s, IsJsSpace)) == Alnums(s)
  {
    var t := TrimStartBy(s, IsJsSpace);
    TrimStartBySuffix(s, IsJsSpace);
    forall k | 0 <= k < |s| - |t| ensures !IsLowerAlnum(s[k]) {
      assert IsJsSpace(s[k]);
    }
    AlnumsOfPiece(s, |s| - |t|, |s|);
    assert s[|s| - |t|..|s|] == t;
  }

  /** Collapsing whitespace keeps the letters and digits in order. */
  lemma {:induction false} AlnumsCollapse(s: string)
    ensures Alnums(CollapseSpaces(s)) == Alnums(s)
    decreases |s|
  {
    if |s| > 0 {
      var rest := CollapseSpaces(s);
      if IsJsSpace(s[0]) {
        var t := TrimStartBy(s, IsJsSpace);
        TrimStartBySuffix(s, IsJsSpace);
        assert rest == " " + CollapseSpaces(t);
        AlnumsCollapse(t);
        AlnumsTrimStart(s);
        AlnumsOfBlanks(" ");
        AlnumsAppend(" ", CollapseSpaces(t));
      } else {
        assert rest == [s[0]] + CollapseSpaces(s[1..]);
        AlnumsCollapse(s[1..]);
        AlnumsAppend([s[0]], CollapseSpaces(s[1..]));
        assert [s[0]][1..] == [];
      }
    }
  }

  /** Trimming keeps the letters and digits. */
  lemma AlnumsTrim(s: string)
    ensures Alnums(Trim(s)) == Alnums(s)
  {
    TrimBySpec(s, IsJsSpace);
    var a := |s| - |TrimStartBy(s, IsJsSpace)|;
    AlnumsOfPiece(s, a, a + |Trim(s)|);
  }

  /**
   * `normalize` keeps every letter and digit of the lower-cased, blanked text,
   * in order: only whitespace is collapsed and trimmed.
   */
  lemma NormalizeKeepsAlnums(text: string)
    ensures Alnums(Normalize(text)) == Alnums(LowerAndBlankAll(text))
  {
    AlnumsTrim(CollapseSpaces(LowerAndBlankAll(text)));
    AlnumsCollapse(LowerAndBlankAll(text));
  }

  /** The two characters besides A-Z that lower-case to an ASCII letter. */
  predicate LowersToAsciiLetter(c: char) {
    c == '\U{212A}' || c == '\U{0130}'
  }

  lemma {:induction false} BlankKeepsLowered(text: string)
    requires forall k :: 0 <= k < |text| ==> !LowersToAsciiLetter(text[k])
    ensures Alnums(LowerAndBlankAll(text)) == Alnums(ToLower(text))
    decreases |text|
  {
    if |text| > 0 {
      var c := text[0];
      assert ToLower(text) == [LowerChar(c)] + ToLower(text[1..]);
      BlankKeepsLowered(text[1..]);
      AlnumsAppend(LowerAndBlank(c), LowerAndBlankAll(text[1..]));
      AlnumsAppend([LowerChar(c)], ToLower(text[1..]));
      if !('A' <= c <= 'Z') && !IsLowerAlnum(c) && !IsJsSpace(c) {
        AlnumsOfBlanks(LowerAndBlank(c));
      }
    }
  }

  /**
   * For text without KELVIN SIGN or a dotted capital I, the letters and digits
   * of `normalize(text)` are exactly those of the ASCII-lower-cased text, in
   * order: `Ab-12 C` keeps `ab12c`.
   */
  lemma NormalizeKeepsLetters(text: string)
    requires forall k :: 0 <= k < |text| ==> !LowersToAsciiLetter(text[k])
    ensures Alnums(Normalize(text)) == Alnums(ToLower(text))
  {
    NormalizeKeepsAlnums(text);
    BlankKeepsLowered(text);
  }

  // Word boundaries ----------------------------------------------------------

  predicate AllBlank(s: string) {
    forall k :: 0 <= k < |s| ==> IsJsSpace(s[k])
  }

  predicate StartsSolid(s: string) {
    |s| > 0 && !IsJsSpace(s[0])
  }

  predicate EndsSolid(s: string) {
    |s| > 0 && !IsJsSpace(s[|s| - 1])
  }

  /** Leading whitespace of `x + y` lies inside `x` when `x` ends in a non-space. */
  lemma {:induction false} TrimStartAppend(x: string, y: string)
    requires EndsSolid(x)
    ensures TrimStartBy(x + y, IsJsSpace) == TrimStartBy(x, IsJsSpace) + y
    decreases |x|
  {
    if IsJsSpace(x[0]) {
      assert (x + y)[1..] == x[1..] + y;
      TrimStartAppend(x[1..], y);
    }
  }

  /** Whitespace in front of text that starts with a non-space is all trimmed away. */
  lemma {:induction false} TrimStartBlanks(w: string, y: string)
    requires AllBlank(w) && (|y| == 0 || !IsJsSpace(y[0]))
    ensures TrimStartBy(w + y, IsJsSpace) == y
    decreases |w|
  {
    if |w| == 0 {
      assert w + y == y;
    } else {
      assert (w + y)[1..] == w[1..] + y;
      TrimStartBlanks(w[1..], y);
    }
  }

  /** Trailing whitespace of `x + y` lies inside `y` when `y` starts with a non-space. */
  lemma {:induction false} TrimEndAppend(x: string, y: string)
    requires StartsSolid(y)
    ensures TrimEndBy(x + y, IsJsSpace) == x + TrimEndBy(y, IsJsSpace)
    decreases |y|
  {
    if IsJsSpace(y[|y| - 1]) {
      assert (x + y)[..|x + y| - 1] == x + y[..|y| - 1];
      TrimEndAppend(x, y[..|y| - 1]);
    }
  }

  /** Whitespace after text that ends with a non-space is all trimmed away. */
  lemma {:induction false} TrimEndBlanks(z: string, w: string)
    requires AllBlank(w) && (|z| == 0 || EndsSolid(z))
    ensures TrimEndBy(z + w, IsJsSpace) == z
    decreases |w|
  {
    if |w| == 0 {
      assert z + w == z;
    } else {
      assert (z + w)[..|z + w| - 1] == z + w[..|w| - 1];
      TrimEndBlanks(z, w[..|w| - 1]);
    }
  }

  /** What `TrimStartBy` keeps of text ending in a non-space still ends in it. */
  lemma TrimStartKeepsEnd(x: string)
    requires EndsSolid(x)
    ensures EndsSolid(TrimStartBy(x, IsJsSpace))
  {
    var t := TrimStartBy(x, IsJsSpace);
    TrimStartBySuffix(x, IsJsSpace);
    assert |t| > 0;
    assert t[|t| - 1] == x[|x| - 1];
  }

  /** A run of whitespace in front of a non-space collapses to one space. */
  lemma CollapseBlanks(w: string, y: string)
    requires AllBlank(w) && |w| > 0 && (|y| == 0 || !IsJsSpace(y[0]))
    ensures CollapseSpaces(w + y) == " " + CollapseSpaces(y)
  {
    assert (w + y)[0] == w[0];
    TrimStartBlanks(w, y);
  }

  /** Collapsing works piecewise across a point just after a non-space. */
  lemma {:induction false} CollapseAppend(x: string, y: string)
    requires EndsSolid(x)
    ensures CollapseSpaces(x + y) == CollapseSpaces(x) + CollapseSpaces(y)
    ensures EndsSolid(CollapseSpaces(x))
    decreases |x|
  {
    if IsJsSpace(x[0]) {
      var t := TrimStartBy(x, IsJsSpace);
      TrimStartKeepsEnd(x);
      TrimStartBySuffix(x, IsJsSpace);
      assert |t| < |x|;
      TrimStartAppend(x, y);
      assert (x + y)[0] == x[0];
      CollapseAppend(t, y);
    } else if |x| == 1 {
      assert x + y == [x[0]] + y;
      assert (x + y)[1..] == y;
      assert x[1..] == [];
    } else {
      assert (x + y)[0] == x[0] && (x + y)[1..] == x[1..] + y;
      CollapseAppend(x[1..], y);
    }
  }

  lemma {:induction false} LowerAndBlankAllAppend(x: string, y: string)
    ensures LowerAndBlankAll(x + y) == LowerAndBlankAll(x) + LowerAndBlankAll(y)
    decreases |x|
  {
    if |x| == 0 {
      assert x + y == y;
    } else {
      assert (x + y)[0] == x[0] && (x + y)[1..] == x[1..] + y;
      LowerAndBlankAllAppend(x[1..], y);
    }
  }

  /** Text of whitespace only normalises to nothing. */
  lemma BlankNormalizesEmpty(w: string)
    requires AllBlank(w)
    ensures Trim(CollapseSpaces(w)) == []
  {
    if |w| > 0 {
      CollapseBlanks(w, []);
      assert w + [] == w;
      assert CollapseSpaces([]) == [];
      TrimByEmpty(" ", IsJsSpace);
    }
  }

  /** Normalising `x` where `x` is a solid-ended part followed by whitespace. */
  lemma NormalizeLeft(x1: string, xs: string)
    requires EndsSolid(x1) && AllBlank(xs)
    ensures Trim(CollapseSpaces(x1 + xs)) == TrimStartBy(CollapseSpaces(x1), IsJsSpace)
  {
    var c := CollapseSpaces(x1);
    CollapseAppend(x1, xs);
    var cs := CollapseSpaces(xs);
    if |xs| > 0 {
      CollapseBlanks(xs, []);
      assert xs + [] == xs;
    }
    assert AllBlank(cs);
    TrimStartAppend(c, cs);
    TrimStartKeepsEnd(c);
    TrimEndBlanks(TrimStartBy(c, IsJsSpace), cs);
  }

  /** Normalising `y` where `y` is whitespace followed by a solid-started part. */
  lemma NormalizeRight(ys: string, y1: string)
    requires AllBlank(ys) && StartsSolid(y1)
    ensures Trim(CollapseSpaces(ys + y1)) == TrimEndBy(CollapseSpaces(y1), IsJsSpace)
  {
    var c := CollapseSpaces(y1);
    assert StartsSolid(c);
    if |ys| > 0 {
      CollapseBlanks(ys, y1);
      TrimStartBlanks(" ", c);
    } else {
      assert ys + y1 == y1;
      TrimStartBlanks([], c);
      assert [] + c == c;
    }
  }

  /** Collapsing across a solid end, a run of whitespace and a solid start. */
  lemma CollapseJoin(x1: string, w: string, y1: string)
    requires EndsSolid(x1) && AllBlank(w) && |w| > 0 && StartsSolid(y1)
    ensures CollapseSpaces(x1 + w + y1) == CollapseSpaces(x1) + " " + CollapseSpaces(y1)
    ensures EndsSolid(CollapseSpaces(x1)) && StartsSolid(CollapseSpaces(y1))
  {
    assert x1 + w + y1 == x1 + (w + y1);
    CollapseAppend(x1, w + y1);
    CollapseBlanks(w, y1);
  }

  /** Trimming text with one space between a solid end and a solid start. */
  lemma TrimJoin(c1: string, c2: string)
    requires EndsSolid(c1) && StartsSolid(c2)
    ensures Trim(c1 + " " + c2) == TrimStartBy(c1, IsJsSpace) + " " + TrimEndBy(c2, IsJsSpace)
  {
    var t1 := TrimStartBy(c1, IsJsSpace);
    assert c1 + " " + c2 == c1 + (" " + c2);
    TrimStartAppend(c1, " " + c2);
    assert t1 + (" " + c2) == (t1 + " ") + c2;
    TrimEndAppend(t1 + " ", c2);
  }

  /** Text that normalises to something is a solid-ended part and trailing whitespace. */
  lemma SplitTrailing(s: string) returns (s1: string, tail: string)
    requires Trim(CollapseSpaces(s)) != []
    ensures s == s1 + tail && EndsSolid(s1) && AllBlank(tail)
  {
    BlankPartsEmpty(s);
    s1 := TrimEndBy(s, IsJsSpace);
    TrimEndByPrefix(s, IsJsSpace);
    tail := s[|s1|..];
    forall k | 0 <= k < |tail| ensures IsJsSpace(tail[k]) {
      assert tail[k] == s[|s1| + k];
    }
  }

  /** Text that normalises to something is leading whitespace and a solid-started part. */
  lemma SplitLeading(s: string) returns (head: string, s1: string)
    requires Trim(CollapseSpaces(s)) != []
    ensures s == head + s1 && AllBlank(head) && StartsSolid(s1)
  {
    BlankPartsEmpty(s);
    s1 := TrimStartBy(s, IsJsSpace);
    TrimStartBySuffix(s, IsJsSpace);
    head := s[..|s| - |s1|];
  }

  /** The string-level step of `NormalizeConcat`, after lower-casing and blanking. */
  lemma CollapseTrimConcat(x: string, y: string)
    requires Trim(CollapseSpaces(x)) != [] && Trim(CollapseSpaces(y)) != []
    ensures Trim(CollapseSpaces(x + " " + y)) == Trim(CollapseSpaces(x)) + " " + Trim(CollapseSpaces(y))
  {
    var x1, tail := SplitTrailing(x);
    var head, y1 := SplitLeading(y);
    var w := tail + " " + head;
    assert AllBlank(w) by {
      forall k | 0 <= k < |w| ensures IsJsSpace(w[k]) {
        if k < |tail| {
          assert w[k] == tail[k];
        } else if k > |tail| {
          assert w[k] == head[k - |tail| - 1];
        }
      }
    }
    assert x + " " + y == x1 + w + y1;
    CollapseJoin(x1, w, y1);
    TrimJoin(CollapseSpaces(x1), CollapseSpaces(y1));
    NormalizeLeft(x1, tail);
    NormalizeRight(head, y1);
  }

  /** Text whose trailing-trimmed or leading-trimmed part is empty normalises to nothing. */
  lemma BlankPartsEmpty(s: string)
    ensures |TrimEndBy(s, IsJsSpace)| == 0 ==> Trim(CollapseSpaces(s)) == []
    ensures |TrimStartBy(s, IsJsSpace)| == 0 ==> Trim(CollapseSpaces(s)) == []
  {
    TrimEndByPrefix(s, IsJsSpace);
    TrimStartBySuffix(s, IsJsSpace);
    if |TrimEndBy(s, IsJsSpace)| == 0 || |TrimStartBy(s, IsJsSpace)| == 0 {
      BlankNormalizesEmpty(s);
    }
  }

  lemma LowerAndBlankJoin(a: string, b: string)
    ensures LowerAndBlankAll(a + " " + b) == LowerAndBlankAll(a) + " " + LowerAndBlankAll(b)
  {
    LowerAndBlankAllAppend(a + " ", b);
    LowerAndBlankAllAppend(a, " ");
    assert LowerAndBlankAll(" ") == " ";
  }

  /**
   * `normalize` keeps words apart: joining two texts that each hold a letter
   * or digit with a space normalises to their normal forms joined by one space.
   */
  lemma NormalizeConcat(a: string, b: string)
    requires Normalize(a) != [] && Normalize(b) != []
    ensures Normalize(a + " " + b) == Normalize(a) + " " + Normalize(b)
  {
    LowerAndBlankJoin(a, b);
    CollapseTrimConcat(LowerAndBlankAll(a), LowerAndBlankAll(b));
  }

  // ---------------------------------------------------------------------------
  // tokenOverlap
  // ---------------------------------------------------------------------------

  /** `new Set(normalize(text).split(' '))`. */
  function Tokens(text: string): (ts: set<string>)
    ensures |ts| >= 1
  {
    var parts := SplitOn(Normalize(text), " ");
    var ts := set k | 0 <= k < |parts| :: parts[k];
    assert parts[0] in ts;
    ts
  }

  /** An exact non-negative fraction `num / den`. */
  datatype Ratio = Ratio(num: nat, den: nat)

  /** `x <= y` for fractions with positive denominators. */
  predicate AtMost(x: Ratio, y: Ratio) {
    x.num * y.den <= y.num * x.den
  }

  /** `x < y` for fractions with positive denominators. */
  predicate Below(x: Ratio, y: Ratio) {
    x.num * y.den < y.num * x.den
  }

  /** A subset has at most as many elements. */
  lemma SubsetCard<T>(a: set<T>, b: set<T>)
    requires a <= b
    ensures |a| <= |b|
    decreases |a|
  {
    if a != {} {
      var x :| x in a;
      SubsetCard(a - {x}, b - {x});
    }
  }

  /**
   * `tokenOverlap(a, b)`: shared tokens over the size of the smaller token
   * set. The source's guard returning 0 for an empty set never fires, since
   * `Tokens` always yields at least one token, and is not modelled.
   */
  function TokenOverlap(a: string, b: string): (r: Ratio)
    ensures r.den >= 1 && r.num <= r.den
    ensures r.num == |set t | t in Tokens(a) && t in Tokens(b)|
    ensures r.den <= |Tokens(a)| && r.den <= |Tokens(b)|
    ensures r.den == |Tokens(a)| || r.den == |Tokens(b)|
  {
    var ta := Tokens(a);
    var tb := Tokens(b);
    SubsetCard(ta * tb, ta);
    SubsetCard(ta * tb, tb);
    assert (set t | t in ta && t in tb) == ta * tb;
    Ratio(|ta * tb|, Min(|ta|, |tb|))
  }

  /** The score does not depend on the order of its arguments. */
  lemma TokenOverlapSymmetric(a: string, b: string)
    ensures TokenOverlap(a, b) == TokenOverlap(b, a)
  {
    assert Tokens(a) * Tokens(b) == Tokens(b) * Tokens(a);
  }

  /** A subset as large as its superset is the whole of it. */
  lemma SubsetSameCard<T>(a: set<T>, b: set<T>)
    requires a <= b && |a| == |b|
    ensures a == b
  {
    if a != b {
      var x :| x in b && x !in a;
      SubsetCard(a, b - {x});
    }
  }

  /** The score is 1 exactly when one token set contains the other. */
  lemma TokenOverlapSubset(a: string, b: string)
    ensures TokenOverlap(a, b).num == TokenOverlap(a, b).den <==>
      Tokens(a) <= Tokens(b) || Tokens(b) <= Tokens(a)
  {
    var ta := Tokens(a);
    var tb := Tokens(b);
    SubsetCard(ta * tb, ta);
    SubsetCard(ta * tb, tb);
    if ta <= tb {
      assert ta * tb == ta;
      SubsetCard(ta, tb);
    } else if tb <= ta {
      assert ta * tb == tb;
      SubsetCard(tb, ta);
    } else if |ta * tb| == Min(|ta|, |tb|) {
      if |ta| <= |tb| {
        SubsetSameCard(ta * tb, ta);
      } else {
        SubsetSameCard(ta * tb, tb);
      }
    }
  }

  /** The score is 0 exactly when the two texts share no token. */
  lemma TokenOverlapZero(a: string, b: string)
    ensures TokenOverlap(a, b).num == 0 <==> Tokens(a) * Tokens(b) == {}
  {
    if Tokens(a) * Tokens(b) != {} {
      var x :| x in Tokens(a) * Tokens(b);
    }
  }

  /** Two messages that normalise to nothing both have the single empty token, and score 1. */
  lemma BlankInputsScoreOne(a: string, b: string)
    requires Normalize(a) == [] && Normalize(b) == []
    ensures TokenOverlap(a, b) == Ratio(1, 1)
  {
    SplitOnAbsent([], " ");
    assert Tokens(a) == {[]} && Tokens(b) == {[]};
  }

  // ---------------------------------------------------------------------------
  // Choosing a hackathon
  // ---------------------------------------------------------------------------

  /** The match threshold `0.34`. */
  const Threshold: Ratio := Ratio(34, 100)

  predicate MeetsThreshold(r: Ratio) {
    AtMost(Threshold, r)
  }

  /** Multiplying both sides of `<=` by a natural number. */
  lemma MulLe(a: int, b: int, m: nat)
    requires a <= b
    ensures a * m <= b * m
  {
    var d := b - a;
    assert b * m == a * m + d * m;
  }

  /** Cancelling a positive factor from `<=`. */
  lemma CancelLe(a: int, b: int, m: nat)
    requires m > 0 && a * m <= b * m
    ensures a <= b
  {
    if a > b {
      MulLe(b + 1, a, m);
    }
  }

  lemma AtMostTrans(x: Ratio, y: Ratio, z: Ratio)
    requires x.den > 0 && y.den > 0 && z.den > 0
    requires AtMost(x, y) && AtMost(y, z)
    ensures AtMost(x, z)
  {
    MulLe(x.num * y.den, y.num * x.den, z.den);
    MulLe(y.num * z.den, z.num * y.den, x.den);
    assert x.num * y.den * z.den == (x.num * z.den) * y.den;
    assert y.num * x.den * z.den == y.num * z.den * x.den;
    assert z.num * y.den * x.den == (z.num * x.den) * y.den;
    CancelLe(x.num * z.den, z.num * x.den, y.den);
  }

  lemma AtMostBelowTrans(x: Ratio, y: Ratio, z: Ratio)
    requires x.den > 0 && y.den > 0 && z.den > 0
    requires AtMost(x, y) && Below(y, z)
    ensures Below(x, z)
  {
    if !Below(x, z) {
      assert AtMost(z, x);
      AtMostTrans(z, x, y);
      assert false;
    }
  }

  function Score(name: string, query: string): (r: Ratio)
    ensures r.den >= 1
  {
    TokenOverlap(name, query)
  }

  /** The first index holding the greatest of some fractions. */
  method FirstMax(scores: seq<Ratio>) returns (bi: nat)
    requires |scores| > 0
    requires forall j :: 0 <= j < |scores| ==> scores[j].den > 0
    ensures bi < |scores|
    ensures forall j :: 0 <= j < |scores| ==> AtMost(scores[j], scores[bi])
    ensures forall j :: 0 <= j < bi ==> Below(scores[j], scores[bi])
  {
    bi := 0;
    var i := 1;
    while i < |scores|
      invariant 1 <= i <= |scores| && bi < i
      invariant forall j :: 0 <= j < i ==> AtMost(scores[j], scores[bi])
      invariant forall j :: 0 <= j < bi ==> Below(scores[j], scores[bi])
    {
      if Below(scores[bi], scores[i]) {
        forall j | 0 <= j < i ensures Below(scores[j], scores[i]) {
          AtMostBelowTrans(scores[j], scores[bi], scores[i]);
        }
        bi := i;
      }
      i := i + 1;
    }
  }

  /** Every name's score against the query. */
  function Scores(names: seq<string>, query: string): (r: seq<Ratio>)
    ensures |r| == |names|
    ensures forall j :: 0 <= j < |names| ==> r[j] == Score(names[j], query) && r[j].den > 0
  {
    seq(|names|, j requires 0 <= j < |names| => Score(names[j], query))
  }

  /**
   * Sorting by descending score (a stable sort) and taking the first entry
   * when its score is at least 0.34: the index of the first hackathon with
   * the highest score, if that score meets the threshold.
   */
  method ResolveHackathon(names: seq<string>, query: string) returns (best: Option<nat>)
    ensures best.Some? ==>
      && best.value < |names|
      && MeetsThreshold(Score(names[best.value], query))
      && (forall j :: 0 <= j < |names| ==> AtMost(Score(names[j], query), Score(names[best.value], query)))
      && (forall j :: 0 <= j < best.value ==> Below(Score(names[j], query), Score(names[best.value], query)))
    ensures best.None? ==> forall j :: 0 <= j < |names| ==> !MeetsThreshold(Score(names[j], query))
  {
    if |names| == 0 {
      return None;
    }
    var scores := Scores(names, query);
    var bi := FirstMax(scores);
    if MeetsThreshold(scores[bi]) {
      best := Some(bi);
    } else {
      forall j | 0 <= j < |names| ensures !MeetsThreshold(Score(names[j], query)) {
        if MeetsThreshold(scores[j]) {
          AtMostTrans(Threshold, scores[j], scores[bi]);
        }
      }
      best := None;
    }
  }
}

=== FILE: cookies.dfy ===
/**
 * The client's cookie reader and login-state derivation (src/hooks/use-auth.tsx).
 *
 * `document.cookie` is a parameter: `None` when there is no browser window
 * (server-side rendering), otherwise the cookie header text.
 */
module Cookies {
  import opened Base
  import opened Strings

  /** The separator the reader splits on: `"; " + name + "="`. */
  function Marker(name: string): (m: string)
    ensures |m| == |name| + 3
  {
    "; " + name + "="
  }

  /** `s.split(';').shift()`: the text before the first `;`. */
  function BeforeSemicolon(s: string): string {
    SplitOn(s, ";")[0]
  }

  /** `getCookie(name)`. */
  function GetCookie(doc: Option<string>, name: string): (r: Option<string>)
    ensures doc.None? ==> r.None?
  {
    if doc.None? then None
    else
      var parts := SplitOn("; " + doc.value, Marker(name));
      if |parts| == 2 then Some(BeforeSemicolon(parts[1])) else None
  }

  /**
   * What `BeforeSemicolon` takes: a prefix of `s` without `;`, ending where
   * `s` ends or just before its first `;`.
   */
  lemma BeforeSemicolonSpec(s: string)
    ensures var v := BeforeSemicolon(s);
      && v <= s
      && (forall k :: 0 <= k < |v| ==> v[k] != ';')
      && (v == s || s[|v|] == ';')
  {
    var parts := SplitOn(s, ";");
    NoCharOccurrence(parts[0], ';');
    if |parts| > 1 {
      assert s == parts[0] + ";" + Join(parts[1..], ";");
    }
  }

  /** The cookie's value: the text after the marker, up to the next `;` or the end. */
  lemma GetCookieValue(doc: string, name: string)
    requires GetCookie(Some(doc), name).Some?
    ensures var v := GetCookie(Some(doc), name).value;
      && (forall k :: 0 <= k < |v| ==> v[k] != ';')
      && exists i :: OccursAt("; " + doc, Marker(name), i) && v <= ("; " + doc)[i + |Marker(name)|..]
  {
    var s := "; " + doc;
    var m := Marker(name);
    var parts := SplitOn(s, m);
    var i := |parts[0]|;
    assert s == parts[0] + m + parts[1];
    assert s[i..i + |m|] == m;
    assert s[i + |m|..] == parts[1];
    BeforeSemicolonSpec(parts[1]);
  }

  /** A name that occurs once is read: its value up to the next `;` or the end. */
  lemma GetCookieUnique(doc: string, name: string, i: nat)
    requires OccursAt("; " + doc, Marker(name), i)
    requires forall j :: OccursAt("; " + doc, Marker(name), j) ==> j == i
    ensures GetCookie(Some(doc), name) == Some(BeforeSemicolon(("; " + doc)[i + |Marker(name)|..]))
  {
    SplitOnUnique("; " + doc, Marker(name), i);
  }

  /** A name that does not occur is not found. */
  lemma GetCookieAbsent(doc: string, name: string)
    requires !Contains("; " + doc, Marker(name))
    ensures GetCookie(Some(doc), name).None?
  {
    SplitOnAbsent("; " + doc, Marker(name));
  }

  /** A duplicated cookie is not found at all, rather than read from its first copy. */
  lemma GetCookieDuplicate(doc: string, name: string, i: nat, j: nat)
    requires OccursAt("; " + doc, Marker(name), i) && OccursAt("; " + doc, Marker(name), j)
    requires i + |Marker(name)| <= j
    ensures GetCookie(Some(doc), name).None?
  {
    SplitOnTwice("; " + doc, Marker(name), i, j);
  }

  /** `"; t="` occurs in `"; t=1; u=2"` only at its start. */
  lemma FirstMarkerUnique()
    ensures OccursAt("; t=1; u=2", Marker("t"), 0)
    ensures forall j :: OccursAt("; t=1; u=2", Marker("t"), j) ==> j == 0
  {
    var s := "; t=1; u=2";
    var m := Marker("t");
    assert m == "; t=";
    assert s[0..4] == m;
    forall j | OccursAt(s, m, j) ensures j == 0 {
      assert s[j..j + 4][0] == m[0] && s[j..j + 4][2] == m[2];
    }
  }

  /** `BeforeSemicolon` cuts `1; u=2` down to `1`. */
  lemma BeforeSemicolonStops(rest: string)
    requires rest == "1; u=2"
    ensures BeforeSemicolon(rest) == "1"
  {
    BeforeSemicolonSpec(rest);
    var v := BeforeSemicolon(rest);
    assert rest[0] == '1' && rest[1] == ';';
    assert v == rest[..1];
  }

  /** A cookie's value stops at the next `;`: `t` is read as `1` from `t=1; u=2`. */
  lemma GetCookieFirst(d: string)
    requires d == "t=1; u=2"
    ensures GetCookie(Some(d), "t") == Some("1")
  {
    FirstMarkerUnique();
    assert "; " + d == "; t=1; u=2";
    GetCookieUnique(d, "t", 0);
    BeforeSemicolonStops(("; " + d)[4..]);
  }

  /** Matching is anchored at a `"; "` boundary: `xt=1` does not supply cookie `t`. */
  lemma GetCookieAnchored()
    ensures GetCookie(Some("xt=1"), "t").None?
  {
    var d := "xt=1";
    var s := "; " + d;
    var m := Marker("t");
    assert m == "; t=";
    assert !Contains(s, m) by {
      assert s[0..4][2] != m[2] && s[1..5][0] != m[0] && s[2..6][0] != m[0];
    }
    GetCookieAbsent(d, "t");
  }

  /** The login state the header reads from cookies (`checkLoginStatus`). */
  datatype LoginState = LoginState(isLoggedIn: bool, userType: Option<string>)

  function CheckLoginStatus(doc: Option<string>): (s: LoginState)
    ensures s.isLoggedIn <==> GetCookie(doc, "isLoggedIn") == Some("true")
    ensures s.userType == GetCookie(doc, "userType")
    ensures doc.None? ==> s == LoginState(false, None)
  {
    LoginState(GetCookie(doc, "isLoggedIn") == Some("true"), GetCookie(doc, "userType"))
  }

  /**
   * The login flag read from the cookie text: when `"; isLoggedIn="` occurs
   * once, the visitor is signed in exactly when the text after it, up to the
   * next `;`, is `true`; when it is absent or occurs twice, signed out.
   */
  lemma LoggedInFromText(doc: string, i: nat, j: nat)
    ensures var s := "; " + doc; var m := Marker("isLoggedIn");
      OccursAt(s, m, i) && (forall k :: OccursAt(s, m, k) ==> k == i) ==>
        (CheckLoginStatus(Some(doc)).isLoggedIn <==> BeforeSemicolon(s[i + |m|..]) == "true")
    ensures !Contains("; " + doc, Marker("isLoggedIn")) ==> !CheckLoginStatus(Some(doc)).isLoggedIn
    ensures var s := "; " + doc; var m := Marker("isLoggedIn");
      OccursAt(s, m, i) && OccursAt(s, m, j) && i + |m| <= j ==> !CheckLoginStatus(Some(doc)).isLoggedIn
  {
    var s := "; " + doc;
    var m := Marker("isLoggedIn");
    if OccursAt(s, m, i) && (forall k :: OccursAt(s, m, k) ==> k == i) {
      GetCookieUnique(doc, "isLoggedIn", i);
    }
    if !Contains(s, m) {
      GetCookieAbsent(doc, "isLoggedIn");
    }
    if OccursAt(s, m, i) && OccursAt(s, m, j) && i + |m| <= j {
      GetCookieDuplicate(doc, "isLoggedIn", i, j);
    }
  }

  /**
   * The user type read from the cookie text: the text after a single
   * `"; userType="` up to the next `;`, and none when the marker is absent
   * or occurs twice.
   */
  lemma UserTypeFromText(doc: string, i: nat, j: nat)
    ensures var s := "; " + doc; var m := Marker("userType");
      OccursAt(s, m, i) && (forall k :: OccursAt(s, m, k) ==> k == i) ==>
        CheckLoginStatus(Some(doc)).userType == Some(BeforeSemicolon(s[i + |m|..]))
    ensures !Contains("; " + doc, Marker("userType")) ==> CheckLoginStatus(Some(doc)).userType.None?
    ensures var s := "; " + doc; var m := Marker("userType");
      OccursAt(s, m, i) && OccursAt(s, m, j) && i + |m| <= j ==> CheckLoginStatus(Some(doc)).userType.None?
  {
    var s := "; " + doc;
    var m := Marker("userType");
    if OccursAt(s, m, i) && (forall k :: OccursAt(s, m, k) ==> k == i) {
      GetCookieUnique(doc, "userType", i);
    }
    if !Contains(s, m) {
      GetCookieAbsent(doc, "userType");
    }
    if OccursAt(s, m, i) && OccursAt(s, m, j) && i + |m| <= j {
      GetCookieDuplicate(doc, "userType", i, j);
    }
  }
}

=== FILE: create_form.dfy ===
/**
 * The organiser's hackathon-creation form
 * (src/app/organizer/dashboard/create/page.tsx): editing the list of draft
 * rounds, and publishing, which turns the form into the request payload.
 *
 * The HTTP call is a parameter (its outcome), and so is the browser's cookie
 * header. `Number(...)` parsing of the prize and team-size fields is not
 * modelled: the payload carries the text handed to `Number`.
 */
module CreateForm {
  import opened Base
  import opened Strings
  import opened Json
  import Cookies
  import Hackathons

  /** A round as the form holds it: any field may still be unset. */
  datatype DraftRound = DraftRound(name: Option<string>, date: Option<string>, description: Option<string>)

  const EmptyRound: DraftRound := DraftRound(None, None, None)

  /** The round fields the form edits. */
  datatype RoundField = RoundName | RoundDate | RoundDescription

  /** `handleAddRound`: one empty round at the end. */
  function AddRound(rounds: seq<DraftRound>): (r: seq<DraftRound>)
    ensures |r| == |rounds| + 1 && r[..|rounds|] == rounds && r[|rounds|] == EmptyRound
  {
    rounds + [EmptyRound]
  }

  /** `handleRemoveRound(index)`: `rounds.filter((_, i) => i !== index)`. */
  function RemoveRound(rounds: seq<DraftRound>, index: int): (r: seq<DraftRound>)
    ensures 0 <= index < |rounds| ==> r == rounds[..index] + rounds[index + 1..]
    ensures !(0 <= index < |rounds|) ==> r == rounds
    decreases |rounds|
  {
    if |rounds| == 0 then []
    else
      var rest := RemoveRound(rounds[1..], index - 1);
      if index == 0 then rest else [rounds[0]] + rest
  }

  /** One field of a round set to `value`. */
  function WithField(r: DraftRound, field: RoundField, value: string): DraftRound {
    match field
    case RoundName => r.(name := Some(value))
    case RoundDate => r.(date := Some(value))
    case RoundDescription => r.(description := Some(value))
  }

  /** `handleRoundChange(index, field, value)`, for an index the page displays. */
  function RoundChange(rounds: seq<DraftRound>, index: nat, field: RoundField, value: string): (r: seq<DraftRound>)
    requires index < |rounds|
    ensures |r| == |rounds|
    ensures forall k :: 0 <= k < |rounds| && k != index ==> r[k] == rounds[k]
    ensures field == RoundName ==>
      (r[index].name == Some(value) && r[index].date == rounds[index].date
       && r[index].description == rounds[index].description)
    ensures field == RoundDate ==>
      (r[index].date == Some(value) && r[index].name == rounds[index].name
       && r[index].description == rounds[index].description)
    ensures field == RoundDescription ==>
      (r[index].description == Some(value) && r[index].name == rounds[index].name
       && r[index].date == rounds[index].date)
  {
    rounds[index := WithField(rounds[index], field, value)]
  }

  /** A user action on the round list, as the page offers them. */
  datatype RoundAction = Add | Remove(index: int) | Change(index: int, field: RoundField, value: string)

  /**
   * The page renders a remove button only when there is more than one round,
   * and edits only displayed rounds; any other action does nothing.
   */
  function ApplyAction(rounds: seq<DraftRound>, a: RoundAction): seq<DraftRound> {
    match a
    case Add => AddRound(rounds)
    case Remove(i) => if |rounds| > 1 && 0 <= i < |rounds| then RemoveRound(rounds, i) else rounds
    case Change(i, f, v) => if 0 <= i < |rounds| then RoundChange(rounds, i, f, v) else rounds
  }

  function ApplyAll(rounds: seq<DraftRound>, actions: seq<RoundAction>): seq<DraftRound>
    decreases |actions|
  {
    if |actions| == 0 then rounds else ApplyAll(ApplyAction(rounds, actions[0]), actions[1..])
  }

  /** Starting from one round, no sequence of page actions empties the list. */
  lemma {:induction false} RoundsNeverEmpty(rounds: seq<DraftRound>, actions: seq<RoundAction>)
    requires |rounds| >= 1
    ensures |ApplyAll(rounds, actions)| >= 1
    decreases |actions|
  {
    if |actions| > 0 {
      var next := ApplyAction(rounds, actions[0]);
      assert |next| >= 1;
      RoundsNeverEmpty(next, actions[1..]);
    }
  }

  /** Every field of the form. */
  datatype Form = Form(
    locationType: Option<string>,
    rounds: seq<DraftRound>,
    name: string, description: string, location: string, tracks: string, rules: string,
    teamSize: string, prize: string, date: string, image: string, prizesDetail: string,
    sponsors: string, faq: string)

  /** The form as the page opens, and as it is left after a successful publish. */
  const InitialForm: Form := Form(None, [EmptyRound], "", "", "", "", "", "", "", "", "", "", "", "")

  /** A round of the request payload. */
  datatype Round = Round(name: string, date: string, description: string)

  /** The request payload (`undefined` fields are `None`). */
  datatype Payload = Payload(
    name: string, description: string, theme: string, locationType: string,
    location: Option<string>, date: string, rounds: seq<Round>,
    prizeText: string,     // the text given to `Number`
    image: Option<string>, hint: string, tracks: seq<string>, rules: string,
    prizes: string, sponsors: seq<string>, faq: seq<string>,
    teamSizeText: string)  // the text given to `Number`

  /** A round is kept when its name and date are set and non-empty. */
  predicate Complete(r: DraftRound) {
    r.name.Some? && r.name.value != [] && r.date.Some? && r.date.value != []
  }

  /** The complete rounds, in order, with a missing description read as empty. */
  function PayloadRounds(rounds: seq<DraftRound>): (r: seq<Round>)
    ensures |r| <= |rounds|
    decreases |rounds|
  {
    if |rounds| == 0 then []
    else
      var rest := PayloadRounds(rounds[1..]);
      var d := rounds[0];
      if Complete(d) then [Round(d.name.value, d.date.value, d.description.GetOr(""))] + rest else rest
  }

  /** Rounds of two lists: each list's rounds, in order. */
  lemma {:induction false} PayloadRoundsAppend(a: seq<DraftRound>, b: seq<DraftRound>)
    ensures PayloadRounds(a + b) == PayloadRounds(a) + PayloadRounds(b)
    decreases |a|
  {
    if |a| == 0 {
      assert a + b == b;
    } else {
      assert (a + b)[1..] == a[1..] + b;
      PayloadRoundsAppend(a[1..], b);
    }
  }

  /** A single round is kept exactly when complete, and then carries its fields. */
  lemma PayloadRoundsSingle(d: DraftRound)
    ensures Complete(d) ==> PayloadRounds([d]) == [Round(d.name.value, d.date.value, d.description.GetOr(""))]
    ensures !Complete(d) ==> PayloadRounds([d]) == []
  {
    assert [d][1..] == [];
  }

  /** `x ? x.split(sep).map(trim).filter(Boolean) : []`. */
  function ListField(x: string, sep: char): (r: seq<string>)
    ensures x == [] ==> r == []
    ensures forall k :: 0 <= k < |r| ==> r[k] != [] && Trim(r[k]) == r[k]
  {
    if x == [] then [] else SplitTrimmed(x, [sep])
  }

  /** The empty-input test is redundant: splitting nothing also yields no items. */
  lemma ListFieldGuardRedundant(x: string, sep: char)
    ensures ListField(x, sep) == SplitTrimmed(x, [sep])
  {
    if x == [] {
      SplitTrimmedBlank(x, sep);
    }
  }

  /** The payload `handlePublish` builds from the form. */
  function BuildPayload(f: Form): (p: Payload)
    ensures p.theme == "General" && p.hint == "hackathon banner"
    ensures p.locationType == (if f.locationType.None? || f.locationType.value == "" then "online" else f.locationType.value)
    ensures p.location.Some? <==> f.locationType == Some("offline")
    ensures p.location.Some? ==> p.location.value == f.location
    ensures p.image == (if f.image == "" then None else Some(f.image))
    ensures p.locationType != []
  {
    Payload(
      f.name,
      f.description,
      "General",
      if f.locationType.None? || f.locationType.value == "" then "online" else f.locationType.value,
      if f.locationType == Some("offline") then Some(f.location) else None,
      f.date,
      PayloadRounds(f.rounds),
      if f.prize == "" then "0" else f.prize,
      if f.image == "" then None else Some(f.image),
      "hackathon banner",
      ListField(f.tracks, ','),
      f.rules,
      f.prizesDetail,
      ListField(f.sponsors, ','),
      ListField(f.faq, '\n'),
      if f.teamSize == "" then "0" else f.teamSize)
  }

  /** The outcome of `apiService.createHackathon`. */
  datatype ApiOutcome = ApiOk | ApiFailed(message: string)

  /** The notification shown to the organiser. */
  datatype Toast = Toast(destructive: bool, title: string, description: string)

  /**
   * The form afterwards, the notification, and the payload handed to
   * `createHackathon` (none when the page stops before the call). Handing it
   * over is not the same as a request leaving the browser: the call may throw
   * first, which is the `ApiFailed` outcome.
   */
  datatype Published = Published(form: Form, toast: Toast, handed: Option<Payload>)

  /** `handlePublish`, given the cookie header and the outcome the API call would have. */
  function Publish(f: Form, cookies: Option<string>, api: ApiOutcome): (r: Published)
    ensures var token := Cookies.GetCookie(cookies, "authToken");
      (token.None? || token.value == "") ==>
        r == Published(f, Toast(true, "Error", "You must be logged in."), None)
    ensures var token := Cookies.GetCookie(cookies, "authToken");
      (token.Some? && token.value != "") ==> r.handed == Some(BuildPayload(f))
    ensures r.handed.Some? && api.ApiOk? ==> r.form == InitialForm && !r.toast.destructive
    ensures api.ApiFailed? ==> r.form == f && r.toast.destructive
    ensures r.handed.Some? && api.ApiFailed? ==>
      r.toast.description == (if api.message == "" then "Failed to publish hackathon." else api.message)
  {
    var token := Cookies.GetCookie(cookies, "authToken");
    if token.None? || token.value == "" then
      Published(f, Toast(true, "Error", "You must be logged in."), None)
    else
      var p := BuildPayload(f);
      match api
      case ApiOk => Published(InitialForm, Toast(false, "Success", "Hackathon published."), Some(p))
      case ApiFailed(msg) =>
        Published(f, Toast(true, "Error", if msg == "" then "Failed to publish hackathon." else msg), Some(p))
  }

  /** After a successful publish the form is blank again, with one empty round. */
  lemma PublishResets(f: Form, cookies: Option<string>)
    requires Cookies.GetCookie(cookies, "authToken").Some? && Cookies.GetCookie(cookies, "authToken").value != ""
    ensures Publish(f, cookies, ApiOk).form.rounds == [EmptyRound]
    ensures Publish(f, cookies, ApiOk).form == InitialForm
    ensures Publish(f, cookies, ApiOk).handed == Some(BuildPayload(f))
  {
  }

  /** The payload's fields the backend's required-field check reads. */
  function RequiredFields(p: Payload): (o: Object)
    ensures o.Keys == {"name", "description", "theme", "locationType"}
    ensures forall k :: k in o <==> k in Hackathons.Required
  {
    map["name" := JStr(p.name), "description" := JStr(p.description),
        "theme" := JStr(p.theme), "locationType" := JStr(p.locationType)]
  }

  /**
   * A published payload, received by the create endpoint with these fields as
   * sent, passes its required-field check exactly when the hackathon's name
   * and description are non-empty.
   */
  lemma PayloadPassesRequiredCheck(f: Form, hack: Object)
    requires forall k :: k in RequiredFields(BuildPayload(f)) ==> k in hack && hack[k] == RequiredFields(BuildPayload(f))[k]
    ensures !Hackathons.MissingRequired(hack) <==> f.name != [] && f.description != []
  {
    var p := BuildPayload(f);
    var o := RequiredFields(p);
    assert "name" in o && "description" in o && "theme" in o && "locationType" in o;
    assert hack["name"] == JStr(f.name) && hack["description"] == JStr(f.description);
    assert hack["theme"] == JStr("General") && hack["locationType"] == JStr(p.locationType);
    if f.name == [] {
      assert !Truthy(Get(hack, "name", JNull));
      assert "name" in Hackathons.Required;
    } else if f.description == [] {
      assert !Truthy(Get(hack, "description", JNull));
      assert "description" in Hackathons.Required;
    } else {
      forall k | k in Hackathons.Required ensures Truthy(Get(hack, k, JNull)) {
        assert k == "name" || k == "description" || k == "theme" || k == "locationType";
      }
    }
  }
}

=== FILE: hackathons.dfy ===
/**
 * The hackathon and registration store of backend/hackathons.py: each
 * endpoint is a transition over the two collections, returning the HTTP
 * status and message together with the new store.
 *
 * The `hackathons` collection is a map from document id to record; the
 * `registrations` collection is a map whose key is the unique
 * `(user_id, hackathon_id)` index and whose value is the `created_at`
 * instant. Token verification is a parameter: `decoded` is `None` exactly
 * when `decode_jwt` fails (bad signature, expiry, missing token).
 */
module Hackathons {
  import opened Base
  import opened Json
  import Tokens

  type Id = string

  /** One hackathon document: its data fields plus the server-maintained ones. */
  datatype Hackathon = Hackathon(
    fields: Object,
    organizerId: string,
    createdAt: int,
    updatedAt: int)

  /** A key of the unique `(user_id, hackathon_id)` registration index. */
  datatype RegKey = RegKey(userId: string, hackathonId: Id)

  datatype Store = Store(
    hackathons: map<Id, Hackathon>,
    registrations: map<RegKey, int>)

  /** An HTTP reply and the store after the request. */
  datatype Reply = Reply(status: int, message: string, store: Store)

  /** The fields a creation request must carry with a truthy value. */
  const Required: seq<string> := ["name", "description", "theme", "locationType"]

  /** The data fields an owner may write through the update endpoint. */
  const Editable: set<string> := {
    "name", "description", "theme", "locationType", "location", "date", "rounds", "prize",
    "image", "hint", "tracks", "rules", "prizes", "sponsors", "faq", "team_size"
  }

  const DefaultImage: string := "https://placehold.co/1200x600.png"

  /**
   * The store invariant: every registration names an existing hackathon, and
   * every document holds only editable data fields.
   */
  ghost predicate Valid(st: Store) {
    && (forall k :: k in st.registrations ==> k.hackathonId in st.hackathons)
    && (forall id :: id in st.hackathons ==> st.hackathons[id].fields.Keys <= Editable)
  }

  /** The `decoded` claims belong to an organizer (`(user_type or '') == 'organizer'`). */
  predicate IsOrganizer(c: Tokens.Claims) {
    c.userType == "organizer"
  }

  /** Some required field is missing or falsy. */
  predicate MissingRequired(hack: Object) {
    exists k | k in Required :: !Truthy(Get(hack, k, JNull))
  }

  /** `int(hack.get('team_size', 0) or 0)`; `None` when the conversion raises. */
  function TeamSize(hack: Object): (r: Option<int>)
    ensures "team_size" !in hack ==> r == Some(0)
    ensures "team_size" in hack && !Truthy(hack["team_size"]) ==> r == Some(0)
  {
    var v := Or(Get(hack, "team_size", JNum(0)), JNum(0));
    if Truthy(v) then IntOf(v) else Some(0)
  }

  /** The value `create_hackathon` stores for an editable field the request leaves out. */
  function CreateDefault(k: string): Json {
    if k in {"date", "rules", "prizes"} then JStr("")
    else if k in {"rounds", "tracks", "sponsors", "faq"} then JArr([])
    else if k == "prize" then JNum(0)
    else if k == "image" then JStr(DefaultImage)
    else if k == "hint" then JStr("hackathon banner")
    else JNull
  }

  /** The data fields of a newly created document, given a valid team size. */
  function NewFields(hack: Object, teamSize: int): (f: Object)
    ensures f.Keys == Editable
    ensures forall k :: k in Required && k in hack ==> f[k] == hack[k]
    ensures f["team_size"] == JNum(teamSize)
  {
    map k | k in Editable :: if k == "team_size" then JNum(teamSize) else Get(hack, k, CreateDefault(k))
  }

  /**
   * POST /create. `newId` is the id the store assigns to the inserted
   * document; `now` is the server clock.
   */
  function CreateHackathon(st: Store, decoded: Option<Tokens.Claims>, hack: Object, newId: Id, now: int): (r: Reply)
    requires newId !in st.hackathons
    ensures decoded.None? ==> r.status == 401 && r.store == st
    ensures decoded.Some? && !IsOrganizer(decoded.value) ==> r.status == 403 && r.store == st
    ensures decoded.Some? && IsOrganizer(decoded.value) && MissingRequired(hack) ==> r.status == 400 && r.store == st
    ensures r.status == 201 <==> (decoded.Some? && IsOrganizer(decoded.value) && !MissingRequired(hack) && TeamSize(hack).Some?)
    ensures r.status != 201 ==> r.store == st
    ensures r.status == 201 ==>
      && r.store.hackathons.Keys == st.hackathons.Keys + {newId}
      && (forall id :: id in st.hackathons ==> r.store.hackathons[id] == st.hackathons[id])
      && r.store.registrations == st.registrations
      && var h := r.store.hackathons[newId];
         && h.organizerId == decoded.value.sub
         && h.createdAt == now && h.updatedAt == now
         && h.fields.Keys == Editable
         && (forall k :: k in Required ==> k in hack && k in h.fields && h.fields[k] == hack[k])
         && "team_size" in h.fields && h.fields["team_size"] == JNum(TeamSize(hack).value)
         && ("team_size" !in hack ==> h.fields["team_size"] == JNum(0))
  {
    if decoded.None? then Reply(401, "Unauthorized", st)
    else if !IsOrganizer(decoded.value) then Reply(403, "Only organizers can create hackathons", st)
    else if MissingRequired(hack) then Reply(400, "Missing required fields", st)
    else match TeamSize(hack)
      case None => Reply(500, "Internal Server Error", st)
      case Some(n) =>
        var h := Hackathon(NewFields(hack, n), decoded.value.sub, now, now);
        Reply(201, "Hackathon created", st.(hackathons := st.hackathons[newId := h]))
  }

  /** The whitelisted part of an update request. */
  function EditableUpdates(hack: Object): (u: Object)
    ensures u.Keys == hack.Keys * Editable
    ensures forall k :: k in u ==> u[k] == hack[k]
  {
    map k | k in hack && k in Editable :: hack[k]
  }

  /** POST /update/<id>. */
  function UpdateHackathon(st: Store, decoded: Option<Tokens.Claims>, id: Id, hack: Object, now: int): (r: Reply)
    ensures decoded.None? ==> r.status == 401 && r.store == st
    ensures decoded.Some? && id !in st.hackathons ==> r.status == 404 && r.store == st
    ensures decoded.Some? && id in st.hackathons && st.hackathons[id].organizerId != decoded.value.sub
            ==> r.status == 403 && r.store == st
    ensures r.status == 200 <==>
      decoded.Some? && id in st.hackathons && st.hackathons[id].organizerId == decoded.value.sub
    ensures r.status != 200 ==> r.store == st
    ensures r.status == 200 ==>
      && r.store.hackathons.Keys == st.hackathons.Keys
      && r.store.registrations == st.registrations
      && (forall other :: other in st.hackathons && other != id ==> r.store.hackathons[other] == st.hackathons[other])
      && var old_ := st.hackathons[id];
         var new_ := r.store.hackathons[id];
         && new_.organizerId == old_.organizerId
         && new_.createdAt == old_.createdAt
         && new_.updatedAt == now
         && new_.fields.Keys == old_.fields.Keys + (hack.Keys * Editable)
         && (forall k :: k in hack && k in Editable ==> new_.fields[k] == hack[k])
         && (forall k :: k in old_.fields && (k !in hack || k !in Editable) ==> new_.fields[k] == old_.fields[k])
  {
    if decoded.None? then Reply(401, "Unauthorized", st)
    else if id !in st.hackathons then Reply(404, "Not found", st)
    else if st.hackathons[id].organizerId != decoded.value.sub then Reply(403, "Forbidden", st)
    else
      var h := st.hackathons[id];
      var h' := h.(fields := h.fields + EditableUpdates(hack), updatedAt := now);
      Reply(200, "Hackathon updated", st.(hackathons := st.hackathons[id := h']))
  }

  /** POST /delete/<id>: removes the document and every registration for it. */
  function DeleteHackathon(st: Store, decoded: Option<Tokens.Claims>, id: Id): (r: Reply)
    ensures decoded.None? ==> r.status == 401 && r.store == st
    ensures decoded.Some? && id !in st.hackathons ==> r.status == 404 && r.store == st
    ensures decoded.Some? && id in st.hackathons && st.hackathons[id].organizerId != decoded.value.sub
            ==> r.status == 403 && r.store == st
    ensures r.status == 200 <==>
      decoded.Some? && id in st.hackathons && st.hackathons[id].organizerId == decoded.value.sub
    ensures r.status != 200 ==> r.store == st
    ensures r.status == 200 ==>
      && r.store.hackathons.Keys == st.hackathons.Keys - {id}
      && (forall other :: other in r.store.hackathons ==> r.store.hackathons[other] == st.hackathons[other])
      && (forall k :: k in r.store.registrations <==> k in st.registrations && k.hackathonId != id)
      && (forall k :: k in r.store.registrations ==> r.store.registrations[k] == st.registrations[k])
  {
    if decoded.None? then Reply(401, "Unauthorized", st)
    else if id !in st.hackathons then Reply(404, "Not found", st)
    else if st.hackathons[id].organizerId != decoded.value.sub then Reply(403, "Forbidden", st)
    else
      var regs := map k | k in st.registrations && k.hackathonId != id :: st.registrations[k];
      Reply(200, "Hackathon deleted", Store(st.hackathons - {id}, regs))
  }

  /**
   * POST /register/<id>: inserts under the unique index; a duplicate-key
   * failure is reported as a success without any write.
   */
  function Register(st: Store, decoded: Option<Tokens.Claims>, id: Id, now: int): (r: Reply)
    ensures decoded.None? ==> r.status == 401 && r.store == st
    ensures decoded.Some? && id !in st.hackathons ==> r.status == 404 && r.store == st
    ensures decoded.Some? && id in st.hackathons ==>
      var key := RegKey(decoded.value.sub, id);
      && (key in st.registrations ==> r == Reply(200, "Already registered", st))
      && (key !in st.registrations ==>
            r.status == 201 && r.message == "Registered"
            && r.store.hackathons == st.hackathons
            && r.store.registrations == st.registrations[key := now])
  {
    if decoded.None? then Reply(401, "Unauthorized", st)
    else if id !in st.hackathons then Reply(404, "Hackathon not found", st)
    else
      var key := RegKey(decoded.value.sub, id);
      if key in st.registrations then Reply(200, "Already registered", st)
      else Reply(201, "Registered", st.(registrations := st.registrations[key := now]))
  }

  /** The fields shown for a registered hackathon, with the value used when a field is absent. */
  const ViewDefaults: map<string, Json> := map[
    "name" := JStr(""), "theme" := JStr(""), "date" := JStr(""), "rounds" := JArr([]),
    "prize" := JNum(0), "locationType" := JStr("online"), "image" := JStr(""),
    "hint" := JStr(""), "description" := JStr("")
  ]

  /** The public projection of a registered hackathon, marked as confirmed. */
  function RegisteredView(id: Id, h: Hackathon): (v: Object)
    ensures v.Keys == ViewDefaults.Keys + {"id", "registrationStatus"}
    ensures "id" in v && v["id"] == JStr(id)
    ensures "registrationStatus" in v && v["registrationStatus"] == JStr("Confirmed")
    ensures "name" in v
    ensures forall k :: k in ViewDefaults ==> v[k] == Get(h.fields, k, ViewDefaults[k])
  {
    var shown := map k | k in ViewDefaults :: Get(h.fields, k, ViewDefaults[k]);
    shown["id" := JStr(id)]["registrationStatus" := JStr("Confirmed")]
  }

  /** The answer of POST /my-registrations. */
  datatype Listing = Unauthorized | Listed(hackathons: map<Id, Object>)

  /** POST /my-registrations: the caller's registered hackathons, keyed by id. */
  function MyRegistrations(st: Store, decoded: Option<Tokens.Claims>): (r: Listing)
    ensures decoded.None? <==> r.Unauthorized?
    ensures r.Listed? ==>
      && (forall id :: id in r.hackathons <==>
            id in st.hackathons && RegKey(decoded.value.sub, id) in st.registrations)
      && (forall id :: id in r.hackathons ==>
            id in st.hackathons && r.hackathons[id] == RegisteredView(id, st.hackathons[id]))
  {
    if decoded.None? then Unauthorized
    else
      var user := decoded.value.sub;
      var listed := map id | id in st.hackathons && RegKey(user, id) in st.registrations
                           :: RegisteredView(id, st.hackathons[id]);
      Listed(listed)
  }

  // ---------------------------------------------------------------------------
  // Properties relating several calls
  // ---------------------------------------------------------------------------

  /** Every endpoint keeps the store invariant. */
  lemma CreatePreservesValid(st: Store, decoded: Option<Tokens.Claims>, hack: Object, newId: Id, now: int)
    requires Valid(st)
    requires newId !in st.hackathons
    ensures Valid(CreateHackathon(st, decoded, hack, newId, now).store)
  {
  }

  lemma UpdatePreservesValid(st: Store, decoded: Option<Tokens.Claims>, id: Id, hack: Object, now: int)
    requires Valid(st)
    ensures Valid(UpdateHackathon(st, decoded, id, hack, now).store)
  {
    var r := UpdateHackathon(st, decoded, id, hack, now);
    if r.status == 200 {
      assert r.store.hackathons[id].fields.Keys <= Editable;
    }
  }

  lemma DeletePreservesValid(st: Store, decoded: Option<Tokens.Claims>, id: Id)
    requires Valid(st)
    ensures Valid(DeleteHackathon(st, decoded, id).store)
  {
  }

  lemma RegisterPreservesValid(st: Store, decoded: Option<Tokens.Claims>, id: Id, now: int)
    requires Valid(st)
    ensures Valid(Register(st, decoded, id, now).store)
  {
  }

  /**
   * Registering twice: the first call answers 201 and adds one record; the
   * second answers 200 "Already registered" and changes nothing.
   */
  lemma RegisterIdempotent(st: Store, c: Tokens.Claims, id: Id, now1: int, now2: int)
    requires id in st.hackathons
    requires RegKey(c.sub, id) !in st.registrations
    ensures var r1 := Register(st, Some(c), id, now1);
      && r1.status == 201 && r1.message == "Registered"
      && |r1.store.registrations| == |st.registrations| + 1
      && Register(r1.store, Some(c), id, now2) == Reply(200, "Already registered", r1.store)
  {
  }

  /**
   * After a successful registration the hackathon is among the caller's
   * registrations; after the owner deletes it, it no longer is, and nobody's
   * registration for it survives.
   */
  lemma RegisterThenDelete(st: Store, user: Tokens.Claims, owner: Tokens.Claims, id: Id, now: int)
    requires Valid(st)
    requires id in st.hackathons && st.hackathons[id].organizerId == owner.sub
    ensures var s1 := Register(st, Some(user), id, now).store;
      && MyRegistrations(s1, Some(user)).Listed?
      && id in MyRegistrations(s1, Some(user)).hackathons
      && var s2 := DeleteHackathon(s1, Some(owner), id).store;
         && id !in MyRegistrations(s2, Some(user)).hackathons
         && (forall k :: k in s2.registrations ==> k.hackathonId != id)
  {
  }
}

=== FILE: header.dfy ===
/**
 * The navigation header's pure rules (src/components/layout/header.tsx):
 * which link is highlighted for the current pathname, which links are shown
 * for the cookie-derived login state, and where the profile link points.
 */
module Header {
  import opened Base
  import Cookies
  import RouteGuard

  /** `profileUrl`: the profile page for the signed-in role. */
  function ProfileUrl(userType: Option<string>): (url: string)
    ensures userType == Some("organizer") ==> url == "/organizer/profile"
    ensures userType == Some("judge") ==> url == "/judge/profile"
    ensures userType != Some("organizer") && userType != Some("judge") ==> url == "/profile"
  {
    if userType == Some("organizer") then "/organizer/profile"
    else if userType == Some("judge") then "/judge/profile"
    else "/profile"
  }

  /** `isActive(href)`: the home link only on `/` itself, any other link on its prefix. */
  predicate IsActive(pathname: string, href: string) {
    if href == "/" then pathname == "/" else href <= pathname
  }

  /** The navigation links whose highlight depends on the pathname. */
  datatype NavLink = Explore | MyHackathons | Dashboard | Create | Judging

  /** Each navigation link's highlight condition, as the header writes it. */
  predicate Highlighted(link: NavLink, pathname: string) {
    match link
    case Explore =>
      IsActive(pathname, "/hackathons") && !IsActive(pathname, "/hackathons/my")
        && !IsActive(pathname, "/organizer") && !IsActive(pathname, "/judge")
    case MyHackathons => IsActive(pathname, "/hackathons/my")
    case Dashboard => IsActive(pathname, "/organizer/dashboard") && !IsActive(pathname, "/organizer/dashboard/create")
    case Create => IsActive(pathname, "/organizer/dashboard/create")
    case Judging => IsActive(pathname, "/judge/dashboard")
  }

  /**
   * Explore is highlighted under `/hackathons` except under `/hackathons/my`;
   * the `/organizer` and `/judge` exclusions never apply to such a path.
   */
  lemma ExploreHighlight(pathname: string)
    ensures Highlighted(Explore, pathname) <==> "/hackathons" <= pathname && !("/hackathons/my" <= pathname)
  {
    if "/hackathons" <= pathname {
      assert pathname[1] == 'h';
      assert "/organizer"[1] == 'o' && "/judge"[1] == 'j';
    }
  }

  /** Dashboard is highlighted under its path except under the create page. */
  lemma DashboardHighlight(pathname: string)
    ensures Highlighted(Dashboard, pathname) <==>
      "/organizer/dashboard" <= pathname && !("/organizer/dashboard/create" <= pathname)
    ensures Highlighted(Create, pathname) ==> "/organizer/dashboard" <= pathname
  {
    if "/organizer/dashboard/create" <= pathname {
      assert "/organizer/dashboard" <= "/organizer/dashboard/create";
    }
  }

  /** The second character of every path a link is highlighted on. */
  function Lead(link: NavLink): char {
    match link
    case Explore => 'h'
    case MyHackathons => 'h'
    case Dashboard => 'o'
    case Create => 'o'
    case Judging => 'j'
  }

  /** A highlighted link's page has the lead character after its first slash. */
  lemma HighlightLead(link: NavLink, pathname: string)
    requires Highlighted(link, pathname)
    ensures |pathname| > 1 && pathname[1] == Lead(link)
  {
  }

  /** On any page at most one navigation link is highlighted. */
  lemma HighlightExclusive(pathname: string, l1: NavLink, l2: NavLink)
    ensures Highlighted(l1, pathname) && Highlighted(l2, pathname) ==> l1 == l2
  {
    if Highlighted(l1, pathname) && Highlighted(l2, pathname) {
      HighlightLead(l1, pathname);
      HighlightLead(l2, pathname);
    }
  }

  /** Which parts of the header are shown. */
  datatype Visible = Visible(
    myHackathons: bool,   // participant link
    dashboard: bool,      // organizer Dashboard and Create links
    judging: bool,        // judge link
    accountMenus: bool,   // notifications and account menus
    signInButtons: bool)  // Participant and Organizer sign-in buttons

  function VisibleLinks(s: Cookies.LoginState): (v: Visible)
    ensures v.myHackathons <==> s.isLoggedIn && s.userType == Some("participant")
    ensures v.dashboard <==> s.isLoggedIn && s.userType == Some("organizer")
    ensures v.judging <==> s.isLoggedIn && s.userType == Some("judge")
    ensures v.accountMenus <==> s.isLoggedIn
    ensures v.accountMenus != v.signInButtons
  {
    Visible(
      s.isLoggedIn && s.userType == Some("participant"),
      s.isLoggedIn && s.userType == Some("organizer"),
      s.isLoggedIn && s.userType == Some("judge"),
      s.isLoggedIn,
      !s.isLoggedIn)
  }

  /** At most one role's links are shown, and a signed-in visitor with an unknown role sees none. */
  lemma RoleLinksExclusive(s: Cookies.LoginState)
    ensures var v := VisibleLinks(s);
      (if v.myHackathons then 1 else 0) + (if v.dashboard then 1 else 0) + (if v.judging then 1 else 0) <= 1
    ensures s.isLoggedIn && s.userType !in {Some("participant"), Some("organizer"), Some("judge")} ==>
      var v := VisibleLinks(s); !v.myHackathons && !v.dashboard && !v.judging
  {
  }

  /** Every profile link target is a page the route guard protects. */
  lemma ProfileUrlProtected(userType: Option<string>, authToken: Option<string>)
    ensures RouteGuard.IsProtected(ProfileUrl(userType))
    ensures !RouteGuard.HasToken(authToken) ==>
      RouteGuard.Guard(ProfileUrl(userType), authToken) == RouteGuard.RedirectToLogin(ProfileUrl(userType))
  {
    var url := ProfileUrl(userType);
    RouteGuard.ProtectedIff(url);
    assert "/organizer" <= "/organizer/profile";
    assert "/judge" <= "/judge/profile";
  }

  /**
   * The signed-out header's Organizer button leads to `/organizer/login`,
   * which lies under the protected `/organizer` prefix: the guard sends the
   * visitor to the participant login page instead.
   */
  lemma OrganizerSignInRedirected(authToken: Option<string>)
    requires !RouteGuard.HasToken(authToken)
    ensures RouteGuard.Guard("/organizer/login", authToken) == RouteGuard.RedirectToLogin("/organizer/login")
  {
    RouteGuard.ProtectedIff("/organizer/login");
    assert "/organizer" <= "/organizer/login";
  }
}

=== FILE: indexer.dfy ===
/**
 * The code indexer's pure helpers (scripts/index-code.mjs): which files are
 * indexed, the language label of an extension, path normalisation, and the
 * split of a file's text into line-numbered chunks.
 *
 * The file-system walk, `stat`, `path.extname`, `path.basename` and the
 * content hash are not modelled: the extension (without its dot), the base
 * name and the size in bytes are inputs.
 */
module Indexer {
  import opened Base
  import opened Strings

  const MaxFileBytes: nat := 512 * 1024
  const UnknownTypeMaxBytes: nat := 64 * 1024
  const DefaultMaxLinesPerChunk: nat := 400

  /** The index the script writes at the root, which it never indexes itself. */
  const IndexFileName: string := "code-index.json"

  const BinaryExtensions: set<string> := {
    "png", "jpg", "jpeg", "gif", "webp", "ico", "bmp", "tiff", "tif", "psd", "ai", "eps",
    "pdf", "woff", "woff2", "ttf", "eot", "otf", "zip", "gz", "tar", "rar", "7z", "bz2",
    "xz", "mp3", "mp4", "mov", "avi", "mkv", "webm", "wav", "flac", "exe", "dll", "bin",
    "dat", "class", "jar", "wasm"
  }

  const TextlikeExtensions: set<string> := {
    "ts", "tsx", "js", "jsx", "mjs", "cjs", "json", "md", "markdown", "txt", "yml", "yaml",
    "env", "css", "scss", "sass", "pcss", "less", "html", "htm", "xml", "svg", "py", "toml",
    "ini", "cfg"
  }

  // ---------------------------------------------------------------------------
  // Which files are indexed
  // ---------------------------------------------------------------------------

  /** The characters the regular-expression `.` does not match. */
  predicate IsLineTerminator(c: char) {
    c == '\n' || c == '\r' || c == '\U{2028}' || c == '\U{2029}'
  }

  /** `/^\.env(\..*)?$/i` on an already lower-cased name. */
  predicate IsEnvFileName(lower: string) {
    lower == ".env"
    || (".env." <= lower && forall k :: 5 <= k < |lower| ==> !IsLineTerminator(lower[k]))
  }

  /**
   * `isSensitive`: the base name mentions a key, secret or credential file,
   * or is a dotenv file. The patterns are ASCII and matched case-insensitively
   * without the `u` flag, which never pairs a character outside ASCII with
   * one inside it, so ASCII lower-casing of the name is exact.
   */
  predicate IsSensitive(basename: string) {
    var lower := ToLower(basename);
    || Contains(lower, "firebase-adminsdk")
    || Contains(lower, "service-account")
    || Contains(lower, "secret")
    || Contains(lower, "credential")
    || IsEnvFileName(lower)
  }

  /**
   * `toLowerCase` on an extension, as far as the extension tables can tell.
   * Besides A-Z, one character lower-cases to an ASCII letter: KELVIN SIGN
   * becomes `k`. Every other character outside ASCII lower-cases to text that
   * still holds a character outside ASCII (LATIN CAPITAL LETTER I WITH DOT
   * ABOVE becomes `i` and a combining dot), and the tables are ASCII, so such
   * an extension is in none of them whichever form it takes; it is kept as is.
   */
  function ExtLowerChar(c: char): char {
    if c == '\U{212A}' then 'k' else LowerChar(c)
  }

  function ExtLower(ext: string): (e: string)
    ensures |e| == |ext|
    ensures forall k :: 0 <= k < |e| ==> !('A' <= e[k] <= 'Z') && e[k] != '\U{212A}'
  {
    seq(|ext|, k requires 0 <= k < |ext| => ExtLowerChar(ext[k]))
  }

  /** On an ASCII extension this is plain ASCII lower-casing. */
  lemma ExtLowerAscii(ext: string)
    requires forall k :: 0 <= k < |ext| ==> ext[k] as int < 128
    ensures ExtLower(ext) == ToLower(ext)
  {
  }

  /**
   * A KELVIN SIGN in an extension reads as `k`: `M\u212AV` is the binary type
   * `mkv` and is skipped, `MAR\u212ADOWN` is labelled markdown.
   */
  lemma KelvinExtensions(basename: string, size: nat)
    ensures ExtLower("M\U{212A}V") == "mkv"
    ensures !ShouldIndexFile("M\U{212A}V", basename, size)
    ensures LanguageOf(ExtLower("MAR\U{212A}DOWN")) == "markdown"
  {
    assert ExtLower("M\U{212A}V") == "mkv";
    assert ExtLower("MAR\U{212A}DOWN") == "markdown";
  }

  /** `shouldIndexFile`, with `ext` the extension as `path.extname(...).slice(1)` gives it. */
  function ShouldIndexFile(ext: string, basename: string, size: nat): (ok: bool)
    ensures ok ==> !IsSensitive(basename) && size <= MaxFileBytes
    ensures ExtLower(ext) in BinaryExtensions ==> !ok
    ensures size > UnknownTypeMaxBytes && ExtLower(ext) !in TextlikeExtensions ==> !ok
    ensures ok <==>
      && ExtLower(ext) !in BinaryExtensions
      && !IsSensitive(basename)
      && size <= MaxFileBytes
      && (ExtLower(ext) in TextlikeExtensions || size <= UnknownTypeMaxBytes)
  {
    var e := ExtLower(ext);
    if e in BinaryExtensions then false
    else if IsSensitive(basename) then false
    else if size > MaxFileBytes then false
    else if e !in TextlikeExtensions && size > UnknownTypeMaxBytes then false
    else true
  }

  /** A file that is neither binary nor sensitive is indexed up to 64 KiB whatever its type. */
  lemma SmallFilesIndexed(ext: string, basename: string, size: nat)
    requires ExtLower(ext) !in BinaryExtensions && !IsSensitive(basename)
    ensures size <= UnknownTypeMaxBytes ==> ShouldIndexFile(ext, basename, size)
    ensures size > MaxFileBytes ==> !ShouldIndexFile(ext, basename, size)
  {
  }

  /** A dotenv file and a key file are never indexed, however small. */
  lemma SecretsNeverIndexed(ext: string, size: nat)
    ensures !ShouldIndexFile(ext, ".env", size)
    ensures !ShouldIndexFile(ext, ".ENV.local", size)
    ensures !ShouldIndexFile(ext, "my-Secret-notes.md", size)
  {
    assert ToLower(".env") == ".env";
    var l2 := ToLower(".ENV.local");
    assert l2 == ".env.local";
    assert ".env." <= l2;
    var l3 := ToLower("my-Secret-notes.md");
    assert l3 == "my-secret-notes.md";
    assert OccursAt(l3, "secret", 3);
  }

  /** A base name containing "secret" in any mix of cases is never indexed. */
  lemma SecretNamesNeverIndexed(ext: string, basename: string, size: nat, i: nat)
    requires i + 6 <= |basename| && ToLower(basename[i..i + 6]) == "secret"
    ensures !ShouldIndexFile(ext, basename, size)
  {
    var piece := ToLower(basename)[i..i + 6];
    forall k | 0 <= k < 6 ensures piece[k] == ToLower(basename[i..i + 6])[k] {
      assert basename[i..i + 6][k] == basename[i + k];
    }
    assert piece == "secret";
    assert OccursAt(ToLower(basename), "secret", i);
  }

  // ---------------------------------------------------------------------------
  // Language labels
  // ---------------------------------------------------------------------------

  /** `getLanguageByExtension` on a lower-cased extension. */
  function LanguageOf(ext: string): (lang: string)
    ensures lang != "text" ==> ext in TextlikeExtensions
  {
    if ext in {"ts", "tsx"} then "typescript"
    else if ext in {"js", "jsx", "mjs", "cjs"} then "javascript"
    else if ext == "py" then "python"
    else if ext == "json" then "json"
    else if ext in {"md", "markdown"} then "markdown"
    else if ext in {"css", "scss", "sass", "pcss", "less"} then "css"
    else if ext in {"yml", "yaml"} then "yaml"
    else if ext in {"html", "htm"} then "html"
    else "text"
  }

  /**
   * Proof helpers for `LabelledNotBinary`: the labelled extensions, in four
   * groups none of which meets the binary list. They state one fact, split
   * so that each comparison against the binary list stays small.
   */
  lemma GroupOneNotBinary(ext: string)
    requires ext in {"ts", "tsx", "js", "jsx", "mjs"}
    ensures ext !in BinaryExtensions
  {
  }

  lemma GroupTwoNotBinary(ext: string)
    requires ext in {"cjs", "py", "json", "md", "markdown"}
    ensures ext !in BinaryExtensions
  {
  }

  lemma GroupThreeNotBinary(ext: string)
    requires ext in {"css", "scss", "sass", "pcss", "less"}
    ensures ext !in BinaryExtensions
  {
  }

  lemma GroupFourNotBinary(ext: string)
    requires ext in {"yml", "yaml", "html", "htm"}
    ensures ext !in BinaryExtensions
  {
  }

  /** No binary extension has a language label. */
  lemma LabelledNotBinary(ext: string)
    requires LanguageOf(ext) != "text"
    ensures ext !in BinaryExtensions
  {
    if ext in {"ts", "tsx", "js", "jsx", "mjs"} {
      GroupOneNotBinary(ext);
    } else if ext in {"cjs", "py", "json", "md", "markdown"} {
      GroupTwoNotBinary(ext);
    } else if ext in {"css", "scss", "sass", "pcss", "less"} {
      GroupThreeNotBinary(ext);
    } else {
      GroupFourNotBinary(ext);
    }
  }

  /**
   * A file whose extension has a language label is indexed exactly when it
   * is not sensitive and at most 512 KiB: the 64 KiB rule never applies.
   */
  lemma LabelledFilesIndexed(ext: string, basename: string, size: nat)
    requires LanguageOf(ExtLower(ext)) != "text"
    ensures ShouldIndexFile(ext, basename, size) <==> !IsSensitive(basename) && size <= MaxFileBytes
  {
    LabelledNotBinary(ExtLower(ext));
  }

  // ---------------------------------------------------------------------------
  // Paths
  // ---------------------------------------------------------------------------

  /** `normalizePath`: every backslash becomes a forward slash. */
  function NormalizePath(p: string): (r: string)
    ensures |r| == |p|
    ensures forall k :: 0 <= k < |r| ==> r[k] != '\\'
    ensures forall k :: 0 <= k < |p| && p[k] != '\\' ==> r[k] == p[k]
  {
    seq(|p|, k requires 0 <= k < |p| => if p[k] == '\\' then '/' else p[k])
  }

  lemma NormalizePathIdempotent(p: string)
    ensures NormalizePath(NormalizePath(p)) == NormalizePath(p)
  {
  }

  // ---------------------------------------------------------------------------
  // Lines and chunks
  // ---------------------------------------------------------------------------

  /**
   * `content.split(/\r?\n/)`: a line ends at each `\n`, and a `\r` directly
   * before that `\n` belongs to the break, not to the line.
   */
  function SplitLines(s: string): (lines: seq<string>)
    ensures |lines| >= 1
    ensures forall k :: 0 <= k < |lines| ==> '\n' !in lines[k]
    decreases |s|
  {
    if |s| == 0 then [""]
    else if s[0] == '\n' then [""] + SplitLines(s[1..])
    else if |s| >= 2 && s[0] == '\r' && s[1] == '\n' then [""] + SplitLines(s[2..])
    else
      var rest := SplitLines(s[1..]);
      [[s[0]] + rest[0]] + rest[1..]
  }

  /** `s` with every `\r\n` pair replaced by `\n`. */
  function ReplaceCrLf(s: string): (r: string)
    ensures |r| <= |s|
    decreases |s|
  {
    if |s| == 0 then []
    else if |s| >= 2 && s[0] == '\r' && s[1] == '\n' then "\n" + ReplaceCrLf(s[2..])
    else [s[0]] + ReplaceCrLf(s[1..])
  }

  /** The number of `\n` characters in `s`. */
  function CountNewlines(s: string): nat
    decreases |s|
  {
    if |s| == 0 then 0 else (if s[0] == '\n' then 1 else 0) + CountNewlines(s[1..])
  }

  /** Splitting into lines and joining them with `\n` normalises line breaks and loses nothing else. */
  lemma {:induction false} SplitLinesJoin(s: string)
    ensures Join(SplitLines(s), "\n") == ReplaceCrLf(s)
    decreases |s|
  {
    if |s| == 0 {
    } else if s[0] == '\n' {
      SplitLinesJoin(s[1..]);
    } else if |s| >= 2 && s[0] == '\r' && s[1] == '\n' {
      SplitLinesJoin(s[2..]);
    } else {
      var rest := SplitLines(s[1..]);
      SplitLinesJoin(s[1..]);
      if |rest| > 1 {
        assert ([[s[0]] + rest[0]] + rest[1..])[1..] == rest[1..];
      }
    }
  }

  /** There is one more line than there are `\n` characters. */
  lemma {:induction false} SplitLinesCount(s: string)
    ensures |SplitLines(s)| == CountNewlines(s) + 1
    decreases |s|
  {
    if |s| == 0 {
    } else if s[0] == '\n' {
      SplitLinesCount(s[1..]);
    } else if |s| >= 2 && s[0] == '\r' && s[1] == '\n' {
      SplitLinesCount(s[2..]);
      assert CountNewlines(s[1..]) == 1 + CountNewlines(s[2..]);
    } else {
      SplitLinesCount(s[1..]);
    }
  }

  /** A chunk: 1-based inclusive line range and the joined text of those lines. */
  datatype Chunk = Chunk(startLine: nat, endLine: nat, content: string)

  function Contents(chunks: seq<Chunk>): (r: seq<string>)
    ensures |r| == |chunks|
    ensures forall k :: 0 <= k < |chunks| ==> r[k] == chunks[k].content
  {
    seq(|chunks|, k requires 0 <= k < |chunks| => chunks[k].content)
  }

  /** Multiplication by a natural number is monotone. */
  lemma MulMonotone(a: nat, b: nat, m: nat)
    requires a <= b
    ensures a * m <= b * m
  {
    var d := b - a;
    assert b * m == a * m + d * m;
  }

  /** `c` blocks of `m` lines, counted by repeated addition. */
  function Blocks(c: nat, m: nat): nat {
    if c == 0 then 0 else Blocks(c - 1, m) + m
  }

  lemma {:induction false} BlocksIsProduct(c: nat, m: nat)
    ensures Blocks(c, m) == c * m
  {
    if c > 0 {
      BlocksIsProduct(c - 1, m);
      assert c * m == (c - 1) * m + m;
    }
  }

  /** `x / m == c` when `x` lies in the `c`-th block of `m`. */
  lemma DivBlock(x: nat, m: nat, c: nat)
    requires m > 0 && Blocks(c, m) <= x < Blocks(c, m) + m
    ensures x / m == c
  {
    BlocksIsProduct(c, m);
    var q := x / m;
    var r := x % m;
    assert x == q * m + r && 0 <= r < m;
    if q < c {
      MulMonotone(q + 1, c, m);
    } else if q > c {
      MulMonotone(c + 1, q, m);
    }
  }

  /** A non-empty run of at most `m` lines, carrying their joined text. */
  predicate ChunkOk(c: Chunk, lines: seq<string>, m: nat) {
    && 1 <= c.startLine <= c.endLine <= |lines|
    && c.endLine - c.startLine + 1 <= m
    && c.content == Join(lines[c.startLine - 1..c.endLine], "\n")
  }

  /** The chunk the loop of `chunkContentByLines` cuts at 0-based line `i`. */
  function NextChunk(lines: seq<string>, i: nat, m: nat): (c: Chunk)
    requires i < |lines| && m > 0
    ensures c.startLine == i + 1 && c.endLine == Min(i + m, |lines|)
    ensures ChunkOk(c, lines, m)
  {
    var end := Min(i + m, |lines|);
    Chunk(i + 1, end, Join(lines[i..end], "\n"))
  }

  predicate AllOk(chunks: seq<Chunk>, lines: seq<string>, m: nat) {
    forall k :: 0 <= k < |chunks| ==> ChunkOk(chunks[k], lines, m)
  }

  /** Each run starts on the line after the previous one ends. */
  predicate Consecutive(chunks: seq<Chunk>) {
    forall k :: 0 < k < |chunks| ==> chunks[k].startLine == chunks[k - 1].endLine + 1
  }

  /** Every run but the last holds exactly `m` lines. */
  predicate FullButLast(chunks: seq<Chunk>, m: nat) {
    forall k :: 0 <= k < |chunks| - 1 ==> chunks[k].endLine - chunks[k].startLine + 1 == m
  }

  /**
   * Each chunk is a non-empty run of at most `m` lines carrying their joined
   * text, the runs are consecutive, and every run but the last is full.
   */
  predicate Shape(chunks: seq<Chunk>, lines: seq<string>, m: nat) {
    AllOk(chunks, lines, m) && Consecutive(chunks) && FullButLast(chunks, m)
  }

  /** The loop's state after cutting `|chunks|` chunks, with `i` the next line to cut from. */
  predicate CutSoFar(chunks: seq<Chunk>, lines: seq<string>, m: nat, i: nat) {
    && m > 0
    && Shape(chunks, lines, m)
    && (|chunks| == 0 ==> i == 0)
    && (|chunks| > 0 ==>
          && i - m < |lines|
          && chunks[0].startLine == 1
          && chunks[|chunks| - 1].startLine == i - m + 1
          && chunks[|chunks| - 1].endLine == Min(i, |lines|)
          && Join(Contents(chunks), "\n") == Join(lines[..Min(i, |lines|)], "\n"))
  }

  lemma AllOkExtend(chunks: seq<Chunk>, c: Chunk, lines: seq<string>, m: nat)
    requires AllOk(chunks, lines, m) && ChunkOk(c, lines, m)
    ensures AllOk(chunks + [c], lines, m)
  {
    var cs := chunks + [c];
    forall k | 0 <= k < |cs| ensures ChunkOk(cs[k], lines, m) {
      if k < |chunks| {
        assert cs[k] == chunks[k];
      }
    }
  }

  lemma ConsecutiveExtend(chunks: seq<Chunk>, c: Chunk)
    requires Consecutive(chunks)
    requires |chunks| > 0 ==> c.startLine == chunks[|chunks| - 1].endLine + 1
    ensures Consecutive(chunks + [c])
  {
    var cs := chunks + [c];
    forall k | 0 < k < |cs| ensures cs[k].startLine == cs[k - 1].endLine + 1 {
      assert cs[k - 1] == chunks[k - 1];
      if k < |chunks| {
        assert cs[k] == chunks[k];
      }
    }
  }

  lemma FullExtend(chunks: seq<Chunk>, c: Chunk, m: nat)
    requires FullButLast(chunks, m)
    requires |chunks| > 0 ==> chunks[|chunks| - 1].endLine - chunks[|chunks| - 1].startLine + 1 == m
    ensures FullButLast(chunks + [c], m)
  {
    var cs := chunks + [c];
    forall k | 0 <= k < |cs| - 1 ensures cs[k].endLine - cs[k].startLine + 1 == m {
      assert cs[k] == chunks[k];
    }
  }

  /** Cutting the next chunk extends the joined text by the next run of lines. */
  lemma JoinExtend(chunks: seq<Chunk>, c: Chunk, lines: seq<string>, i: nat, end: nat)
    requires i < end <= |lines|
    requires c.content == Join(lines[i..end], "\n")
    requires |chunks| == 0 ==> i == 0
    requires |chunks| > 0 ==> i > 0
    requires |chunks| > 0 ==> Join(Contents(chunks), "\n") == Join(lines[..i], "\n")
    ensures Join(Contents(chunks + [c]), "\n") == Join(lines[..end], "\n")
  {
    var slice := lines[i..end];
    assert Contents(chunks + [c]) == Contents(chunks) + [c.content];
    if |chunks| > 0 {
      JoinAppend(Contents(chunks), [c.content], "\n");
      assert Join([c.content], "\n") == c.content;
      JoinAppend(lines[..i], slice, "\n");
      assert lines[..i] + slice == lines[..end];
    } else {
      assert Contents(chunks) + [c.content] == [c.content];
      assert lines[..end] == slice;
    }
  }

  /** Cutting the next chunk keeps the loop's state. */
  lemma CutExtend(chunks: seq<Chunk>, lines: seq<string>, m: nat, i: nat)
    requires CutSoFar(chunks, lines, m, i) && i < |lines|
    ensures CutSoFar(chunks + [NextChunk(lines, i, m)], lines, m, i + m)
  {
    var c := NextChunk(lines, i, m);
    AllOkExtend(chunks, c, lines, m);
    ConsecutiveExtend(chunks, c);
    FullExtend(chunks, c, m);
    JoinExtend(chunks, c, lines, i, Min(i + m, |lines|));
  }

  /**
   * The chunks of `lines` at `m` lines per chunk: as many as it takes to cover
   * the lines, from the first line to the last, shaped as `Shape` says.
   */
  predicate Chunking(chunks: seq<Chunk>, lines: seq<string>, m: nat)
    requires m > 0
  {
    && |chunks| == (|lines| + m - 1) / m
    && |chunks| >= 1
    && chunks[0].startLine == 1
    && chunks[|chunks| - 1].endLine == |lines|
    && Shape(chunks, lines, m)
  }

  /** Once every line is cut, the chunks cover all lines and hold all the text. */
  lemma CutDone(chunks: seq<Chunk>, lines: seq<string>, m: nat, i: nat)
    requires CutSoFar(chunks, lines, m, i) && i >= |lines| >= 1 && i == Blocks(|chunks|, m)
    ensures Chunking(chunks, lines, m)
    ensures Join(Contents(chunks), "\n") == Join(lines, "\n")
  {
    assert lines[..|lines|] == lines;
    DivBlock(|lines| + m - 1, m, |chunks|);
  }

  /**
   * `chunkContentByLines`: consecutive runs of `maxLinesPerChunk` lines (the
   * last run may be shorter), numbered from line 1. The source loops forever
   * on a non-positive chunk size, so the size must be positive here.
   */
  method ChunkContentByLines(content: string, maxLinesPerChunk: nat) returns (chunks: seq<Chunk>)
    requires maxLinesPerChunk > 0
    ensures Chunking(chunks, SplitLines(content), maxLinesPerChunk)
    ensures Join(Contents(chunks), "\n") == ReplaceCrLf(content)
  {
    var lines := SplitLines(content);
    chunks := [];
    var i := 0;
    while i < |lines|
      invariant CutSoFar(chunks, lines, maxLinesPerChunk, i)
      invariant i == Blocks(|chunks|, maxLinesPerChunk)
      decreases |lines| - i
    {
      CutExtend(chunks, lines, maxLinesPerChunk, i);
      chunks := chunks + [NextChunk(lines, i, maxLinesPerChunk)];
      i := i + maxLinesPerChunk;
    }
    CutDone(chunks, lines, maxLinesPerChunk, i);
    SplitLinesJoin(content);
  }

  /** What the index stores for one file (modification time and hash left out). */
  datatype FileRecord = FileRecord(path: string, size: nat, language: string, numLines: nat, chunks: seq<Chunk>)

  /** One iteration of `buildIndex`: the record for a file, or nothing when it is skipped. */
  method IndexFile(relPath: string, ext: string, basename: string, size: nat, content: string)
    returns (r: Option<FileRecord>)
    ensures r.Some? <==> relPath != IndexFileName && ShouldIndexFile(ext, basename, size)
    ensures r.Some? ==>
      && r.value.path == NormalizePath(relPath)
      && '\\' !in r.value.path && |r.value.path| == |relPath|
      && r.value.size == size
      && r.value.language == LanguageOf(ExtLower(ext))
      && r.value.numLines == CountNewlines(content) + 1
      && |r.value.chunks| >= 1
      && r.value.chunks[|r.value.chunks| - 1].endLine == r.value.numLines
      && Join(Contents(r.value.chunks), "\n") == ReplaceCrLf(content)
      && Chunking(r.value.chunks, SplitLines(content), DefaultMaxLinesPerChunk)
  {
    if relPath == IndexFileName || !ShouldIndexFile(ext, basename, size) {
      return None;
    }
    var chunks := ChunkContentByLines(content, DefaultMaxLinesPerChunk);
    SplitLinesCount(content);
    var path := NormalizePath(relPath);
    assert forall k :: 0 <= k < |path| ==> path[k] != '\\';
    r := Some(FileRecord(path, size, LanguageOf(ExtLower(ext)), |SplitLines(content)|, chunks));
  }
}

=== FILE: json.dfy ===
/**
 * JSON request and document values as the Python backend sees them, with
 * Python's truth-value rules (`not x`, `x or default`).
 */
module Json {
  import opened Base
  import Strings

  /** A decoded JSON value. Numbers are integers: fractional numbers are not modelled. */
  datatype Json =
    | JNull
    | JBool(b: bool)
    | JNum(n: int)
    | JStr(s: string)
    | JArr(items: seq<Json>)
    | JObj(fields: map<string, Json>)

  /** A JSON object (a Python `dict` with string keys). */
  type Object = map<string, Json>

  /** Python truthiness: `None`, `False`, `0`, `''`, `[]` and `{}` are false. */
  predicate Truthy(v: Json) {
    match v
    case JNull => false
    case JBool(b) => b
    case JNum(n) => n != 0
    case JStr(s) => s != []
    case JArr(items) => items != []
    case JObj(fields) => fields != map[]
  }

  /** `d.get(k, default)`. */
  function Get(d: Object, k: string, default: Json): Json {
    if k in d then d[k] else default
  }

  /** `x or default`: `x` when truthy, otherwise `default`. */
  function Or(x: Json, default: Json): (r: Json)
    ensures Truthy(x) ==> r == x
    ensures !Truthy(x) ==> r == default
  {
    if Truthy(x) then x else default
  }

  /**
   * Python `int(x)` for a truthy JSON value: integers pass, `True` is 1, a
   * string of decimal digits (optionally signed, surrounded by whitespace)
   * is parsed, and anything else raises, which is `None` here.
   */
  function IntOf(x: Json): (r: Option<int>)
    ensures x.JNum? ==> r == Some(x.n)
    ensures (x.JArr? || x.JObj? || x.JNull?) ==> r.None?
  {
    match x
    case JNum(n) => Some(n)
    case JBool(b) => Some(if b then 1 else 0)
    case JStr(s) =>
      var t := Strings.Strip(s);
      if |t| > 0 && Strings.AllDigits(t) then Some(Strings.ParseDecimal(t))
      else if |t| > 1 && (t[0] == '-' || t[0] == '+') && Strings.AllDigits(t[1..]) then
        var m: int := Strings.ParseDecimal(t[1..]);
        Some(if t[0] == '-' then -m else m)
      else None
    case _ => None
  }
}

=== FILE: routes.dfy ===
/**
 * The page-route guard (src/middleware.ts): given the request's pathname and
 * its `authToken` cookie, either let the request through or redirect it.
 */
module RouteGuard {
  import opened Base

  /** Pages that need a session. */
  const ProtectedPrefixes: seq<string> := ["/hackathons/my", "/profile", "/organizer", "/judge"]

  /** Pages a signed-in visitor is sent away from. */
  const AuthPrefixes: seq<string> := ["/login", "/signup"]

  /** Where the guard sends a signed-out visitor, and a signed-in one. */
  const LoginPath: string := "/login"
  const DashboardPath: string := "/hackathons/my"

  datatype Decision =
    | RedirectToLogin(redirect: string)   // `/login?redirect=<pathname>`
    | RedirectTo(path: string)
    | PassThrough

  /** `prefixes.some(p => pathname.startsWith(p))`. */
  predicate StartsWithAny(pathname: string, prefixes: seq<string>) {
    exists k :: 0 <= k < |prefixes| && prefixes[k] <= pathname
  }

  predicate IsProtected(pathname: string) {
    StartsWithAny(pathname, ProtectedPrefixes)
  }

  predicate IsAuthPage(pathname: string) {
    StartsWithAny(pathname, AuthPrefixes)
  }

  /** The protected prefixes, spelt out. */
  lemma ProtectedIff(pathname: string)
    ensures IsProtected(pathname) <==>
      ("/hackathons/my" <= pathname || "/profile" <= pathname || "/organizer" <= pathname || "/judge" <= pathname)
  {
    var ps := ProtectedPrefixes;
    if "/hackathons/my" <= pathname { assert ps[0] <= pathname; }
    if "/profile" <= pathname { assert ps[1] <= pathname; }
    if "/organizer" <= pathname { assert ps[2] <= pathname; }
    if "/judge" <= pathname { assert ps[3] <= pathname; }
  }

  /** The sign-in prefixes, spelt out. */
  lemma AuthIff(pathname: string)
    ensures IsAuthPage(pathname) <==> ("/login" <= pathname || "/signup" <= pathname)
  {
    var ps := AuthPrefixes;
    if "/login" <= pathname { assert ps[0] <= pathname; }
    if "/signup" <= pathname { assert ps[1] <= pathname; }
  }

  /** JavaScript truthiness of the optional cookie value: absent and empty are both false. */
  predicate HasToken(authToken: Option<string>) {
    authToken.Some? && authToken.value != ""
  }

  /** `middleware(request)`. */
  function Guard(pathname: string, authToken: Option<string>): (d: Decision)
    ensures d.RedirectToLogin? <==>
      && (authToken.None? || authToken.value == "")
      && ("/hackathons/my" <= pathname || "/profile" <= pathname || "/organizer" <= pathname || "/judge" <= pathname)
    ensures d.RedirectToLogin? ==> d.redirect == pathname
    ensures d.RedirectTo? <==>
      && authToken.Some? && authToken.value != ""
      && ("/login" <= pathname || "/signup" <= pathname)
    ensures d.RedirectTo? ==> d.path == "/hackathons/my"
  {
    ProtectedIff(pathname);
    AuthIff(pathname);
    if IsProtected(pathname) && !HasToken(authToken) then RedirectToLogin(pathname)
    else if IsAuthPage(pathname) && HasToken(authToken) then RedirectTo(DashboardPath)
    else PassThrough
  }

  /** No protected page is also a sign-in page, so the two redirects never compete. */
  lemma ProtectedAndAuthDisjoint(pathname: string)
    ensures !(IsProtected(pathname) && IsAuthPage(pathname))
  {
    ProtectedIff(pathname);
    AuthIff(pathname);
    if IsAuthPage(pathname) {
      assert pathname[1] == 'l' || pathname[1] == 's' by {
        if "/login" <= pathname { assert "/login"[1] == pathname[1]; }
        else { assert "/signup"[1] == pathname[1]; }
      }
    }
  }

  /**
   * Following a redirect never redirects again under the same cookie: the
   * login page lets a signed-out visitor in, and the dashboard lets a
   * signed-in one in.
   */
  lemma NoRedirectLoop(pathname: string, authToken: Option<string>)
    ensures Guard(pathname, authToken).RedirectToLogin? ==> Guard(LoginPath, authToken) == PassThrough
    ensures Guard(pathname, authToken).RedirectTo? ==> Guard(Guard(pathname, authToken).path, authToken) == PassThrough
  {
    assert LoginPath[1] == 'l';
    if Guard(pathname, authToken).RedirectTo? {
      assert DashboardPath[1] == 'h';
    }
  }

  /**
   * Matching is by prefix and not by path segment: a sign-in page under
   * `/organizer` is protected, and so is `/profile-x`.
   */
  lemma PrefixNotSegment()
    ensures Guard("/organizer/login", None) == RedirectToLogin("/organizer/login")
    ensures Guard("/profile-x", Some("")) == RedirectToLogin("/profile-x")
    ensures Guard("/signup/organizer", Some("t")) == RedirectTo("/hackathons/my")
  {
    assert "/organizer" <= "/organizer/login";
    assert "/profile" <= "/profile-x";
    assert "/signup" <= "/signup/organizer";
  }
}

=== FILE: strings.dfy ===
/**
 * String primitives shared by the model: substring search, `split`/`join` on a
 * literal separator, trimming under the JavaScript and Python whitespace
 * definitions, ASCII lower-casing and decimal rendering.
 */
module Strings {
  import opened Base

  // ---------------------------------------------------------------------------
  // Substring search
  // ---------------------------------------------------------------------------

  /** `pat` occurs in `s` starting at index `i`. */
  predicate OccursAt(s: string, pat: string, i: int) {
    0 <= i && i + |pat| <= |s| && s[i..i + |pat|] == pat
  }

  /** `pat` occurs somewhere in `s`. */
  predicate Contains(s: string, pat: string) {
    exists i | 0 <= i <= |s| - |pat| :: OccursAt(s, pat, i)
  }

  lemma OccursShift(s: string, pat: string)
    requires |s| > 0
    ensures forall j :: 0 <= j ==> (OccursAt(s[1..], pat, j) <==> OccursAt(s, pat, j + 1))
  {
    forall j | 0 <= j
      ensures OccursAt(s[1..], pat, j) <==> OccursAt(s, pat, j + 1)
    {
      if j + 1 + |pat| <= |s| {
        assert s[1..][j..j + |pat|] == s[j + 1..j + 1 + |pat|];
      }
    }
  }

  /** An occurrence inside a prefix of `s` is an occurrence in `s`. */
  lemma OccursInPrefix(s: string, n: nat, pat: string, j: int)
    requires n <= |s|
    requires OccursAt(s[..n], pat, j)
    ensures OccursAt(s, pat, j)
  {
    assert s[..n][j..j + |pat|] == s[j..j + |pat|];
  }

  /** An occurrence inside a suffix of `s` is an occurrence in `s`, shifted. */
  lemma OccursInSuffix(s: string, n: nat, pat: string, j: int)
    requires n <= |s|
    requires OccursAt(s[n..], pat, j)
    ensures OccursAt(s, pat, n + j)
  {
    assert s[n..][j..j + |pat|] == s[n + j..n + j + |pat|];
  }

  /** The index of the leftmost occurrence of `pat` in `s`, if any. */
  function Find(s: string, pat: string): (r: Option<nat>)
    requires |pat| > 0
    ensures r.Some? ==> OccursAt(s, pat, r.value)
    ensures r.Some? ==> forall j :: 0 <= j < r.value ==> !OccursAt(s, pat, j)
    ensures r.None? <==> !Contains(s, pat)
    decreases |s|
  {
    if |s| < |pat| then None
    else if s[..|pat|] == pat then
      assert OccursAt(s, pat, 0);
      Some(0)
    else
      OccursShift(s, pat);
      match Find(s[1..], pat)
      case None =>
        assert forall j :: 0 <= j <= |s| - |pat| ==> !OccursAt(s, pat, j) by {
          forall j | 0 <= j <= |s| - |pat| ensures !OccursAt(s, pat, j) {
            if j > 0 { assert !OccursAt(s[1..], pat, j - 1); }
          }
        }
        None
      case Some(i) =>
        assert forall j :: 0 <= j < i + 1 ==> !OccursAt(s, pat, j) by {
          forall j | 0 <= j < i + 1 ensures !OccursAt(s, pat, j) {
            if j > 0 { assert !OccursAt(s[1..], pat, j - 1); }
          }
        }
        Some(i + 1)
  }

  // ---------------------------------------------------------------------------
  // split / join on a literal separator
  // ---------------------------------------------------------------------------

  /** `parts` glued back together with `sep` between neighbours (`Array.prototype.join`). */
  function Join(parts: seq<string>, sep: string): string
    decreases |parts|
  {
    if |parts| == 0 then []
    else if |parts| == 1 then parts[0]
    else parts[0] + sep + Join(parts[1..], sep)
  }

  /** Joining two non-empty lists is joining each and gluing the halves with `sep`. */
  lemma {:induction false} JoinAppend(a: seq<string>, b: seq<string>, sep: string)
    requires |a| > 0 && |b| > 0
    ensures Join(a + b, sep) == Join(a, sep) + sep + Join(b, sep)
    decreases |a|
  {
    if |a| == 1 {
      assert (a + b)[1..] == b;
    } else {
      assert (a + b)[1..] == a[1..] + b;
      JoinAppend(a[1..], b, sep);
    }
  }

  /**
   * `s.split(sep)` for a non-empty literal separator: the pieces between the
   * non-overlapping occurrences of `sep`, scanning left to right.
   */
  function SplitOn(s: string, sep: string): (parts: seq<string>)
    requires |sep| > 0
    ensures |parts| >= 1
    ensures Join(parts, sep) == s
    ensures forall k :: 0 <= k < |parts| ==> !Contains(parts[k], sep)
    decreases |s|
  {
    match Find(s, sep)
    case None => [s]
    case Some(i) =>
      var rest := SplitOn(s[i + |sep|..], sep);
      assert !Contains(s[..i], sep) by {
        forall j | 0 <= j <= i - |sep| ensures !OccursAt(s[..i], sep, j) {
          if OccursAt(s[..i], sep, j) { OccursInPrefix(s, i, sep, j); }
        }
      }
      assert s == s[..i] + sep + s[i + |sep|..];
      [s[..i]] + rest
  }

  /** A string free of `sep` is not split at all. */
  lemma SplitOnAbsent(s: string, sep: string)
    requires |sep| > 0
    requires !Contains(s, sep)
    ensures SplitOn(s, sep) == [s]
  {
  }

  /** If `sep` occurs exactly once, at `i`, the split has exactly the two sides of it. */
  lemma SplitOnUnique(s: string, sep: string, i: nat)
    requires |sep| > 0
    requires OccursAt(s, sep, i)
    requires forall j :: OccursAt(s, sep, j) ==> j == i
    ensures SplitOn(s, sep) == [s[..i], s[i + |sep|..]]
  {
    var tail := s[i + |sep|..];
    assert !Contains(tail, sep) by {
      forall j | 0 <= j <= |tail| - |sep| ensures !OccursAt(tail, sep, j) {
        if OccursAt(tail, sep, j) { OccursInSuffix(s, i + |sep|, sep, j); }
      }
    }
  }

  /** Two non-overlapping occurrences give at least three pieces. */
  lemma SplitOnTwice(s: string, sep: string, i: nat, j: nat)
    requires |sep| > 0
    requires OccursAt(s, sep, i) && OccursAt(s, sep, j) && i + |sep| <= j
    ensures |SplitOn(s, sep)| >= 3
  {
    var l := Find(s, sep).value;
    assert l <= i;
    var tail := s[l + |sep|..];
    assert OccursAt(tail, sep, j - (l + |sep|)) by {
      assert tail[j - (l + |sep|)..j - (l + |sep|) + |sep|] == s[j..j + |sep|];
    }
    assert Contains(tail, sep);
  }

  /** A string has no `c` when the one-character pattern `[c]` does not occur in it. */
  lemma NoCharOccurrence(s: string, c: char)
    requires !Contains(s, [c])
    ensures forall k :: 0 <= k < |s| ==> s[k] != c
  {
    forall k | 0 <= k < |s| ensures s[k] != c {
      assert !OccursAt(s, [c], k);
      assert s[k..k + 1] == [s[k]];
    }
  }

  /** Every character of a part is a character of the joined string. */
  lemma {:induction false} JoinChars(parts: seq<string>, sep: string, k: nat, c: char)
    requires k < |parts| && c in parts[k]
    ensures c in Join(parts, sep)
    decreases |parts|
  {
    if |parts| > 1 {
      var j := Join(parts, sep);
      var rest := Join(parts[1..], sep);
      assert j == parts[0] + sep + rest;
      if k == 0 {
        var i :| 0 <= i < |parts[0]| && parts[0][i] == c;
        assert j[i] == c;
      } else {
        JoinChars(parts[1..], sep, k - 1, c);
        var i :| 0 <= i < |rest| && rest[i] == c;
        assert j[|parts[0]| + |sep| + i] == c;
      }
    }
  }

  // ---------------------------------------------------------------------------
  // Whitespace and trimming
  // ---------------------------------------------------------------------------

  /** JavaScript WhiteSpace or LineTerminator: the set `String.prototype.trim` and `\s` use. */
  predicate IsJsSpace(c: char) {
    || c == '\t' || c == '\n' || c == '\U{000B}' || c == '\U{000C}' || c == '\r' || c == ' '
    || c == '\U{00A0}' || c == '\U{1680}' || ('\U{2000}' <= c <= '\U{200A}')
    || c == '\U{2028}' || c == '\U{2029}' || c == '\U{202F}' || c == '\U{205F}'
    || c == '\U{3000}' || c == '\U{FEFF}'
  }

  /** Python `str.isspace` for one character: the set `str.strip()` removes. */
  predicate IsPySpace(c: char) {
    || c == '\t' || c == '\n' || c == '\U{000B}' || c == '\U{000C}' || c == '\r'
    || ('\U{001C}' <= c <= '\U{001F}') || c == ' ' || c == '\U{0085}' || c == '\U{00A0}'
    || c == '\U{1680}' || ('\U{2000}' <= c <= '\U{200A}') || c == '\U{2028}' || c == '\U{2029}'
    || c == '\U{202F}' || c == '\U{205F}' || c == '\U{3000}'
  }

  /** `s` without its leading characters satisfying `ws`. */
  function TrimStartBy(s: string, ws: char -> bool): (r: string)
    ensures |r| <= |s|
    ensures |r| > 0 ==> !ws(r[0])
    decreases |s|
  {
    if |s| > 0 && ws(s[0]) then TrimStartBy(s[1..], ws) else s
  }

  /** What `TrimStartBy` keeps is a suffix, and what it drops is whitespace. */
  lemma {:induction false} TrimStartBySuffix(s: string, ws: char -> bool)
    ensures var r := TrimStartBy(s, ws);
      r == s[|s| - |r|..] && forall k :: 0 <= k < |s| - |r| ==> ws(s[k])
    decreases |s|
  {
    if |s| > 0 && ws(s[0]) {
      TrimStartBySuffix(s[1..], ws);
      var r := TrimStartBy(s, ws);
      assert s[1..][|s| - 1 - |r|..] == s[|s| - |r|..];
      forall k | 0 <= k < |s| - |r| ensures ws(s[k]) {
        if k > 0 {
          assert s[k] == s[1..][k - 1];
        }
      }
    }
  }

  /** `s` without its trailing characters satisfying `ws`. */
  function TrimEndBy(s: string, ws: char -> bool): (r: string)
    ensures |r| <= |s|
    ensures |r| > 0 ==> !ws(r[|r| - 1])
    decreases |s|
  {
    if |s| > 0 && ws(s[|s| - 1]) then TrimEndBy(s[..|s| - 1], ws) else s
  }

  /** What `TrimEndBy` keeps is a prefix, and what it drops is whitespace. */
  lemma {:induction false} TrimEndByPrefix(s: string, ws: char -> bool)
    ensures var r := TrimEndBy(s, ws);
      r == s[..|r|] && forall k :: |r| <= k < |s| ==> ws(s[k])
    decreases |s|
  {
    if |s| > 0 && ws(s[|s| - 1]) {
      TrimEndByPrefix(s[..|s| - 1], ws);
      var r := TrimEndBy(s, ws);
      assert s[..|s| - 1][..|r|] == s[..|r|];
      forall k | |r| <= k < |s| ensures ws(s[k]) {
        if k < |s| - 1 {
          assert s[k] == s[..|s| - 1][k];
        }
      }
    }
  }

  /** `s` with leading and trailing `ws` characters removed. */
  function TrimBy(s: string, ws: char -> bool): string {
    TrimEndBy(TrimStartBy(s, ws), ws)
  }

  /** `s` neither starts nor ends with a `ws` character. */
  predicate TrimmedBy(s: string, ws: char -> bool) {
    |s| == 0 || (!ws(s[0]) && !ws(s[|s| - 1]))
  }

  /** A prefix `r` of a suffix `t` of `s` is the slice of `s` where `t` starts. */
  lemma PrefixOfSuffix(s: string, t: string, r: string)
    requires |t| <= |s| && t == s[|s| - |t|..]
    requires |r| <= |t| && r == t[..|r|]
    ensures s[|s| - |t|..|s| - |t| + |r|] == r
    ensures |r| > 0 ==> r[0] == t[0]
  {
    assert s[|s| - |t|..|s| - |t| + |r|] == t[..|r|];
  }

  /** What lies past `r` in `t` lies past the same point in `s`. */
  lemma TailOfSuffix(s: string, t: string, r: string, ws: char -> bool)
    requires |t| <= |s| && t == s[|s| - |t|..] && |r| <= |t|
    requires forall k :: |r| <= k < |t| ==> ws(t[k])
    ensures forall k :: |s| - |t| + |r| <= k < |s| ==> ws(s[k])
  {
    var a := |s| - |t|;
    forall k | a + |r| <= k < |s| ensures ws(s[k]) {
      assert s[k] == t[k - a];
    }
  }

  /** The trimmed text neither starts nor ends with whitespace. */
  lemma TrimByEdges(s: string, ws: char -> bool)
    ensures TrimmedBy(TrimBy(s, ws), ws)
  {
    var t := TrimStartBy(s, ws);
    var r := TrimEndBy(t, ws);
    TrimEndByPrefix(t, ws);
    if |r| > 0 {
      assert r[0] == t[0];
    }
  }

  /** The trimmed text is the slice of `s` after its leading whitespace. */
  lemma TrimByPiece(s: string, ws: char -> bool)
    ensures var r := TrimBy(s, ws); var a := |s| - |TrimStartBy(s, ws)|;
      0 <= a && a + |r| <= |s| && s[a..a + |r|] == r
  {
    var t := TrimStartBy(s, ws);
    TrimStartBySuffix(s, ws);
    TrimEndByPrefix(t, ws);
    PrefixOfSuffix(s, t, TrimEndBy(t, ws));
  }

  /** What follows the trimmed text in `s` is whitespace. */
  lemma TrimByTail(s: string, ws: char -> bool)
    ensures var r := TrimBy(s, ws); var a := |s| - |TrimStartBy(s, ws)|;
      forall k :: a + |r| <= k < |s| ==> ws(s[k])
  {
    var t := TrimStartBy(s, ws);
    TrimStartBySuffix(s, ws);
    TrimEndByPrefix(t, ws);
    TailOfSuffix(s, t, TrimEndBy(t, ws), ws);
  }

  /**
   * What trimming means: the result is a contiguous piece of `s` that neither
   * starts nor ends with whitespace, and everything cut away is whitespace.
   */
  lemma TrimBySpec(s: string, ws: char -> bool)
    ensures TrimmedBy(TrimBy(s, ws), ws)
    ensures var r := TrimBy(s, ws); var a := |s| - |TrimStartBy(s, ws)|;
      0 <= a && a + |r| <= |s| && s[a..a + |r|] == r
    ensures var a := |s| - |TrimStartBy(s, ws)|;
      forall k :: 0 <= k < a ==> ws(s[k])
    ensures var r := TrimBy(s, ws); var a := |s| - |TrimStartBy(s, ws)|;
      forall k :: a + |r| <= k < |s| ==> ws(s[k])
  {
    TrimByEdges(s, ws);
    TrimByPiece(s, ws);
    TrimStartBySuffix(s, ws);
    TrimByTail(s, ws);
  }

  /** Trimming a trimmed string changes nothing, so trimming is idempotent. */
  lemma TrimByIdempotent(s: string, ws: char -> bool)
    ensures TrimmedBy(s, ws) ==> TrimBy(s, ws) == s
    ensures TrimBy(TrimBy(s, ws), ws) == TrimBy(s, ws)
  {
    TrimBySpec(s, ws);
  }

  /** Trimming leaves nothing exactly when every character is whitespace. */
  lemma TrimByEmpty(s: string, ws: char -> bool)
    ensures TrimBy(s, ws) == [] <==> forall k :: 0 <= k < |s| ==> ws(s[k])
  {
    var t := TrimStartBy(s, ws);
    TrimStartBySuffix(s, ws);
    TrimEndByPrefix(t, ws);
    if |t| > 0 {
      assert !ws(t[0]);
      assert TrimEndBy(t, ws) != [];
      assert s[|s| - |t|] == t[0];
    }
  }

  /** JavaScript `String.prototype.trim`. */
  function Trim(s: string): string {
    TrimBy(s, IsJsSpace)
  }

  /** Python `str.strip()` with no argument. */
  function Strip(s: string): string {
    TrimBy(s, IsPySpace)
  }

  lemma TrimIdempotent(s: string)
    ensures Trim(Trim(s)) == Trim(s)
  {
    TrimByIdempotent(s, IsJsSpace);
  }

  /** Each piece trimmed: `pieces.map(p => p.trim())`. */
  function Trims(pieces: seq<string>): (r: seq<string>)
    ensures |r| == |pieces|
    ensures forall k :: 0 <= k < |pieces| ==> r[k] == Trim(pieces[k])
  {
    seq(|pieces|, k requires 0 <= k < |pieces| => Trim(pieces[k]))
  }

  /** `pieces.map(p => p.trim()).filter(Boolean)`. */
  function TrimNonEmpty(pieces: seq<string>): (r: seq<string>)
    ensures forall k :: 0 <= k < |r| ==> r[k] != [] && Trim(r[k]) == r[k]
    decreases |pieces|
  {
    if |pieces| == 0 then []
    else
      var t := Trim(pieces[0]);
      TrimIdempotent(pieces[0]);
      (if t == [] then [] else [t]) + TrimNonEmpty(pieces[1..])
  }

  /** The items are exactly the non-empty trimmed pieces. */
  lemma {:induction false} TrimNonEmptyMembers(pieces: seq<string>)
    ensures forall x :: x in TrimNonEmpty(pieces) <==> x in Trims(pieces) && x != []
    decreases |pieces|
  {
    if |pieces| > 0 {
      TrimNonEmptyMembers(pieces[1..]);
      assert Trims(pieces) == [Trim(pieces[0])] + Trims(pieces[1..]);
    }
  }

  /** Filtering piecewise: the pieces of a concatenation keep their order. */
  lemma {:induction false} TrimNonEmptyAppend(a: seq<string>, b: seq<string>)
    ensures TrimNonEmpty(a + b) == TrimNonEmpty(a) + TrimNonEmpty(b)
    decreases |a|
  {
    if |a| > 0 {
      var t := Trim(a[0]);
      var h := if t == [] then [] else [t];
      assert (a + b)[0] == a[0];
      assert (a + b)[1..] == a[1..] + b;
      assert TrimNonEmpty(a + b) == h + TrimNonEmpty(a[1..] + b);
      TrimNonEmptyAppend(a[1..], b);
    } else {
      assert a + b == b;
    }
  }

  /** `s.split(sep).map(p => p.trim()).filter(Boolean)`. */
  function SplitTrimmed(s: string, sep: string): (r: seq<string>)
    requires |sep| > 0
    ensures forall k :: 0 <= k < |r| ==> r[k] != [] && Trim(r[k]) == r[k]
  {
    TrimNonEmpty(SplitOn(s, sep))
  }

  /** A piece without the separator, cut from text of separators and whitespace, is blank. */
  lemma BlankPiece(parts: seq<string>, sep: char, k: nat)
    requires k < |parts| && !Contains(parts[k], [sep])
    requires forall c :: c in Join(parts, [sep]) ==> c == sep || IsJsSpace(c)
    ensures Trim(parts[k]) == []
  {
    NoCharOccurrence(parts[k], sep);
    forall i | 0 <= i < |parts[k]| ensures IsJsSpace(parts[k][i]) {
      JoinChars(parts, [sep], k, parts[k][i]);
    }
    TrimByEmpty(parts[k], IsJsSpace);
  }

  /** Pieces that all trim to nothing yield no items. */
  lemma {:induction false} TrimNonEmptyAllBlank(pieces: seq<string>)
    requires forall k :: 0 <= k < |pieces| ==> Trim(pieces[k]) == []
    ensures TrimNonEmpty(pieces) == []
    decreases |pieces|
  {
    if |pieces| > 0 {
      assert Trim(pieces[0]) == [];
      TrimNonEmptyAllBlank(pieces[1..]);
    }
  }

  /** Text made only of separator characters and whitespace yields no items. */
  lemma SplitTrimmedBlank(s: string, sep: char)
    requires forall k :: 0 <= k < |s| ==> s[k] == sep || IsJsSpace(s[k])
    ensures SplitTrimmed(s, [sep]) == []
  {
    var parts := SplitOn(s, [sep]);
    forall k | 0 <= k < |parts| ensures Trim(parts[k]) == [] {
      BlankPiece(parts, sep, k);
    }
    TrimNonEmptyAllBlank(parts);
  }


  // ---------------------------------------------------------------------------
  // Case and digits
  // ---------------------------------------------------------------------------

  /** Lower-case one character; only the ASCII letters A-Z change. */
  function LowerChar(c: char): char {
    if 'A' <= c <= 'Z' then (c as int + 32) as char else c
  }

  /** `toLowerCase` / `lower()` restricted to ASCII letters. */
  function ToLower(s: string): string {
    seq(|s|, k requires 0 <= k < |s| => LowerChar(s[k]))
  }

  /** Lower-casing is idempotent and leaves no upper-case ASCII letter. */
  lemma ToLowerIdempotent(s: string)
    ensures ToLower(ToLower(s)) == ToLower(s)
    ensures forall k :: 0 <= k < |s| ==> !('A' <= ToLower(s)[k] <= 'Z')
  {
  }

  /** A string without upper-case ASCII letters is its own lower-case form. */
  lemma ToLowerNoUpper(s: string)
    requires forall k :: 0 <= k < |s| ==> !('A' <= s[k] <= 'Z')
    ensures ToLower(s) == s
  {
  }

  /** Any piece of a lower-cased string is already lower-case. */
  lemma ToLowerInfix(s: string, i: nat, j: nat)
    requires i <= j <= |s|
    ensures ToLower(ToLower(s)[i..j]) == ToLower(s)[i..j]
  {
    var t := ToLower(s)[i..j];
    forall k | 0 <= k < |t| ensures !('A' <= t[k] <= 'Z') {
      assert t[k] == ToLower(s)[i + k];
    }
    ToLowerNoUpper(t);
  }

  /** `Strip` keeps a contiguous piece of its input, starting at `a`. */
  lemma StripInfix(s: string) returns (a: nat)
    ensures a + |Strip(s)| <= |s| && Strip(s) == s[a..a + |Strip(s)|]
  {
    TrimBySpec(s, IsPySpace);
    a := |s| - |TrimStartBy(s, IsPySpace)|;
  }

  lemma StripIdempotent(s: string)
    ensures Strip(Strip(s)) == Strip(s)
  {
    TrimByIdempotent(s, IsPySpace);
  }

  predicate IsDigit(c: char) {
    '0' <= c <= '9'
  }

  predicate AllDigits(s: string) {
    forall k :: 0 <= k < |s| ==> IsDigit(s[k])
  }

  function DigitChar(d: nat): (c: char)
    requires d < 10
    ensures IsDigit(c) && c as int - '0' as int == d
  {
    ('0' as int + d) as char
  }

  /** The decimal rendering of `n` (JavaScript template interpolation of a non-negative integer). */
  function DecimalString(n: nat): (r: string)
    ensures |r| > 0 && AllDigits(r)
    decreases n
  {
    if n < 10 then [DigitChar(n)] else DecimalString(n / 10) + [DigitChar(n % 10)]
  }

  /** The value of a string of decimal digits. */
  function ParseDecimal(s: string): nat
    requires AllDigits(s)
    decreases |s|
  {
    if |s| == 0 then 0
    else ParseDecimal(s[..|s| - 1]) * 10 + (s[|s| - 1] as int - '0' as int)
  }

  /** Rendering then parsing gives the number back. */
  lemma {:induction false} DecimalRoundTrip(n: nat)
    ensures ParseDecimal(DecimalString(n)) == n
    decreases n
  {
    if n >= 10 {
      var r := DecimalString(n);
      assert r[..|r| - 1] == DecimalString(n / 10);
      DecimalRoundTrip(n / 10);
    }
  }
}

=== FILE: tokens.dfy ===
/**
 * The claims carried by the backend's signed session token (backend/auth.py
 * `create_jwt`). Signing and verification are not modelled: a token is its
 * claims, and a verification outcome is an `Option<Claims>` supplied by the
 * caller (`None` when the signature or expiry check fails).
 */
module Tokens {

  /** Microseconds in one second. */
  const MicrosPerSecond: nat := 1_000_000

  /** Default token lifetime in minutes (`JWT_EXPIRES_MINUTES` when unset). */
  const DefaultExpiresMinutes: nat := 60

  /** The token payload: subject, profile data, and issue/expiry instants in whole seconds. */
  datatype Claims = Claims(
    sub: string,
    email: string,
    userType: string,
    name: string,
    iat: int,
    exp: int)

  /**
   * `int(...)` of a timestamp given in microseconds: whole seconds, truncated
   * toward zero as Python's `int` truncates a float.
   */
  function TruncSeconds(micros: int): (secs: int)
    ensures micros >= 0 ==> secs * MicrosPerSecond <= micros < (secs + 1) * MicrosPerSecond
    ensures micros < 0 ==> (secs - 1) * MicrosPerSecond < micros <= secs * MicrosPerSecond
  {
    if micros >= 0 then micros / MicrosPerSecond else -((-micros) / MicrosPerSecond)
  }

  /**
   * `create_jwt` at the instant `nowMicros` (microseconds since the epoch).
   * Both instants are truncated to whole seconds as `int(ts.timestamp())`
   * does. The lifetime is `int(JWT_EXPIRES_MINUTES)`, which may be negative;
   * the token then expires before it is issued.
   */
  function Issue(userId: string, email: string, userType: string, name: string,
                 nowMicros: nat, expiresMinutes: int): (c: Claims)
    ensures c.sub == userId && c.email == email && c.userType == userType && c.name == name
    ensures c.iat * MicrosPerSecond <= nowMicros < (c.iat + 1) * MicrosPerSecond
    ensures nowMicros + expiresMinutes * 60 * MicrosPerSecond >= 0 ==> c.exp == c.iat + expiresMinutes * 60
    ensures expiresMinutes >= 0 ==> c.exp == c.iat + expiresMinutes * 60
    ensures expiresMinutes < 0 <==> c.exp < c.iat
  {
    var iat := TruncSeconds(nowMicros);
    var exp := TruncSeconds(nowMicros + expiresMinutes * 60 * MicrosPerSecond);
    ExpiryArithmetic(nowMicros, expiresMinutes);
    Claims(userId, email, userType, name, iat, exp)
  }

  /** Adding whole seconds before dividing equals adding them after. */
  lemma ExpiryArithmetic(nowMicros: nat, expiresMinutes: int)
    ensures (nowMicros + expiresMinutes * 60 * MicrosPerSecond) / MicrosPerSecond
         == nowMicros / MicrosPerSecond + expiresMinutes * 60
  {
    var q := nowMicros / MicrosPerSecond;
    var r := nowMicros % MicrosPerSecond;
    var k := expiresMinutes * 60;
    assert nowMicros + k * MicrosPerSecond == (q + k) * MicrosPerSecond + r;
  }
}

=== FILE: wishlist.dfy ===
/**
 * The browser-side hackathon wishlist (src/lib/wishlist.ts): a set of
 * hackathon ids kept as a JSON array under one local-storage key.
 *
 * A JavaScript `Set<string>` is modelled as a sequence without duplicates in
 * insertion order, which is the order `Array.from` and iteration use.
 */
module Wishlist {

  const StorageKey: string := "wishlist:hackathons"

  /** What `localStorage.getItem(key)` holds, as far as `getWishlist` can tell. */
  datatype Stored =
    | Missing                          // null or the empty string
    | StringArray(items: seq<string>)  // JSON text of an array of strings
    | NotArray                         // valid JSON that is not an array
    | Unparsable                       // text `JSON.parse` rejects

  /**
   * No `window` (server rendering), or a window whose storage holds `stored`
   * under the key; `writable` is false when `setItem` throws (quota exceeded,
   * storage disabled), which `setWishlist` swallows.
   */
  datatype Browser = NoWindow | Window(stored: Stored, writable: bool)

  /** No id occurs twice. */
  predicate NoDup(s: seq<string>) {
    forall i, j :: 0 <= i < j < |s| ==> s[i] != s[j]
  }

  /** `set.add(x)`: appended when new, otherwise unchanged. */
  function Add(s: seq<string>, x: string): (r: seq<string>)
    ensures NoDup(s) ==> NoDup(r)
    ensures forall y :: y in r <==> y in s || y == x
  {
    if x in s then s else s + [x]
  }

  /** `set.delete(x)`: every other element stays, in order. */
  function Delete(s: seq<string>, x: string): (r: seq<string>)
    ensures |r| <= |s|
    ensures NoDup(s) ==> NoDup(r)
    ensures forall y :: y in r <==> y in s && y != x
    decreases |s|
  {
    if |s| == 0 then []
    else if s[0] == x then Delete(s[1..], x)
    else
      var rest := Delete(s[1..], x);
      assert s[0] !in s[1..] ==> s[0] !in rest;
      [s[0]] + rest
  }

  /** `new Set(arr)`: the first occurrence of each element, in order. */
  function FromArray(items: seq<string>): (r: seq<string>)
    ensures NoDup(r)
    ensures forall y :: y in r <==> y in items
    decreases |items|
  {
    if |items| == 0 then []
    else Add(FromArray(items[..|items| - 1]), items[|items| - 1])
  }

  /** Building a set from an array without duplicates keeps the array as it is. */
  lemma {:induction false} FromArrayNoDup(items: seq<string>)
    requires NoDup(items)
    ensures FromArray(items) == items
    decreases |items|
  {
    if |items| > 0 {
      var init := items[..|items| - 1];
      FromArrayNoDup(init);
      assert items[|items| - 1] !in init;
      assert init + [items[|items| - 1]] == items;
    }
  }

  /** `getWishlist()`. */
  function GetWishlist(b: Browser): (ids: seq<string>)
    ensures NoDup(ids)
    ensures b.NoWindow? || !b.stored.StringArray? ==> ids == []
    ensures b.Window? && b.stored.StringArray? ==> forall y :: y in ids <==> y in b.stored.items
  {
    if b.Window? && b.stored.StringArray? then FromArray(b.stored.items) else []
  }

  /**
   * `setWishlist(ids)`: stores the array when there is a window whose storage
   * accepts the write; otherwise storage keeps what it held.
   */
  function SetWishlist(b: Browser, ids: seq<string>): (b': Browser)
    ensures b.NoWindow? || !b.writable ==> b' == b
    ensures b.Window? && b.writable ==> b' == Window(StringArray(ids), true)
  {
    if b.NoWindow? || !b.writable then b else Window(StringArray(ids), true)
  }

  /** Storing a set and reading it back gives the same set; a failed write leaves the old one. */
  lemma GetAfterSet(b: Browser, ids: seq<string>)
    requires b.Window? && NoDup(ids)
    ensures b.writable ==> GetWishlist(SetWishlist(b, ids)) == ids
    ensures !b.writable ==> GetWishlist(SetWishlist(b, ids)) == GetWishlist(b)
  {
    FromArrayNoDup(ids);
  }

  datatype Toggled = Toggled(browser: Browser, ids: seq<string>)

  /** `toggleWishlist(id, on)`: the new browser state and the returned set. */
  function ToggleWishlist(b: Browser, id: string, on: bool): (t: Toggled)
    ensures (id in t.ids) <==> on
    ensures forall y :: y != id ==> (y in t.ids <==> y in GetWishlist(b))
    ensures NoDup(t.ids)
  {
    var current := GetWishlist(b);
    var next := if on then Add(current, id) else Delete(current, id);
    Toggled(SetWishlist(b, next), next)
  }

  /**
   * With writable storage, the stored wishlist afterwards is the returned
   * set; without a window, or when the write fails, storage is unchanged
   * although the returned set is still the toggled one.
   */
  lemma ToggleStores(b: Browser, id: string, on: bool)
    ensures b.Window? && b.writable ==> GetWishlist(ToggleWishlist(b, id, on).browser) == ToggleWishlist(b, id, on).ids
    ensures b.NoWindow? || !b.writable ==> ToggleWishlist(b, id, on).browser == b
  {
    if b.Window? && b.writable {
      GetAfterSet(b, ToggleWishlist(b, id, on).ids);
    }
  }

  /** Toggling twice with the same flag is toggling once, whether or not the write succeeds. */
  lemma ToggleIdempotent(b: Browser, id: string, on: bool)
    ensures ToggleWishlist(ToggleWishlist(b, id, on).browser, id, on) == ToggleWishlist(b, id, on)
  {
    if b.Window? && b.writable {
      var t := ToggleWishlist(b, id, on);
      ToggleStores(b, id, on);
      if on {
        assert Add(t.ids, id) == t.ids;
      } else {
        DeleteAbsent(t.ids, id);
      }
    }
  }

  /** Deleting an absent element changes nothing. */
  lemma {:induction false} DeleteAbsent(s: seq<string>, x: string)
    requires x !in s
    ensures Delete(s, x) == s
    decreases |s|
  {
    if |s| > 0 {
      DeleteAbsent(s[1..], x);
      assert [s[0]] + s[1..] == s;
    }
  }

  /** `isWishlisted(id)`: whether storage holds an array of ids containing `id`. */
  function IsWishlisted(b: Browser, id: string): (r: bool)
    ensures r <==> b.Window? && b.stored.StringArray? && id in b.stored.items
  {
    id in GetWishlist(b)
  }

  /**
   * After a toggle, `isWishlisted` reports the flag when the write succeeded,
   * and what it reported before when the write failed.
   */
  lemma ToggleThenIsWishlisted(b: Browser, id: string, on: bool)
    requires b.Window?
    ensures b.writable ==> IsWishlisted(ToggleWishlist(b, id, on).browser, id) == on
    ensures !b.writable ==> IsWishlisted(ToggleWishlist(b, id, on).browser, id) == IsWishlisted(b, id)
  {
    ToggleStores(b, id, on);
  }
}
